=== FILE: README.md ===
# Tennis tournament pipeline (Practica1) in Dafny

This project models the core of a Java program that:
- reads tennis players (`Tenista1` records) from a CSV file;
- validates each player;
- keeps the saved players in a bounded FIFO cache;
- writes the players out as CSV, XML or JSON, picking the format from the output file's extension.

Each Java class becomes one Dafny module:

- `Model` (tenista.dfy): the record `Tenista1` and the `Mano` enum. Java's mutable record with setters becomes an immutable datatype with update functions, and `equals`/`hashCode` work on the id alone.
- `Validator` (validator.dfy): `TenistaValidator`. It has the seven per-field checks and the aggregate `validar`, which gives at most one message per field. It also has the two converters for the hand and the birth date.
- `CsvReader` (csv_reader.dfy), `leerTenistas` and its helpers:
  - the path checks, over a file system given as a map from paths to lines;
  - the header check;
  - `parsearLineaTenista`, with its three `catch` clauses;
  - the line loop, as a fold and as a method with loop invariants;
  - `contarLineasValidas`.
- `Cache` (cache.dfy): `TenistaCache`. It is a value holding the key order of its `LinkedHashMap` plus the map itself, with the class invariant `Valid`. Every mutator is a function from the old cache to the new one.
- `CsvWriter`, `XmlWriter` and `JsonWriter` (csv_writer.dfy, xml_writer.dfy, json_writer.dfy): each writer's escaping function, its per-record formatter, and its document as the exact string it writes. Each escaping function is proved equal to a per-character reference, and is proved to round-trip through the matching decoder:
  - RFC 4180 style unquoting for CSV;
  - entity decoding for XML;
  - backslash decoding for JSON.
- `Dispatch` (dispatch.dfy): the pure decisions of `Main`:
  - the argument rule and the default output name;
  - `obtenerExtension`;
  - the writer switch of `generarArchivoSalida`;
  - the cache that the load loop fills.
- Support modules:
  - `Wrappers`: `Option`, `Result` and the Java exceptions as values;
  - `JavaText`: `trim`, `split`, `String.join`, `replace`, `lastIndexOf` and case mapping;
  - `Numbers`: `int`/`long`, `String.valueOf`, `Integer.parseInt` and zero padding;
  - `Dates`: `LocalDate`, `LocalDateTime`, `minusYears`, and the `yyyy-MM-dd` patterns.

Clock readings are parameters:
- `LocalDate.now()` is `today`;
- `LocalDateTime.now()` is `now`;
- the reader's loop takes a `clock` that gives each data line its own `Reading`.

Three details of the reader:
- Error entries carry the file line number, so the first data line is line 2 (src/main/java/com/torneo_tenis/io/CsvReader.java:55).
- A parsed record gets the id `0L` (src/main/java/com/torneo_tenis/io/CsvReader.java:177).
- `leerTenistas` returns only the record list. The error list in `Lectura` stands for the lines it logs (src/main/java/com/torneo_tenis/io/CsvReader.java:80-83) and is not part of Java's return value.

## Model

| member | source | states |
|---|---|---|
| Model.EqualsIgnoresOtherFields | src/main/java/com/torneo_tenis/model/Tenista1.java:130-135 | `equals` is reflexive, symmetric and transitive. It holds exactly when the ids agree (two null ids included), so records that differ only outside `id` are still equal. |
| Model.WrapInt32 | src/main/java/com/torneo_tenis/model/Tenista1.java:138-140 | Java `int` arithmetic: the result lies in the `int` range and equals the input modulo 2^32. |
| Model.LongHash | src/main/java/com/torneo_tenis/model/Tenista1.java:138-140 | `Long.hashCode` (low 32 bits of `v ^ (v >>> 32)`) is the value itself for ids 0..2^31-1. |
| Model.HashCode | src/main/java/com/torneo_tenis/model/Tenista1.java:138-140 | `Objects.hash(id)` is 31 for a null id, and id + 31 for small non-negative ids. |
| Model.EqualsHashCode | src/main/java/com/torneo_tenis/model/Tenista1.java:130-140 | Equal records have equal hash codes. |
| Model.SetId | src/main/java/com/torneo_tenis/model/Tenista1.java:88-90 | `setId` changes `id` to the argument and no other field. |
| Model.SetNombre | src/main/java/com/torneo_tenis/model/Tenista1.java:92-94 | `setNombre` changes only `nombre`. |
| Model.SetPais | src/main/java/com/torneo_tenis/model/Tenista1.java:96-98 | `setPais` changes only `pais`. |
| Model.SetAltura | src/main/java/com/torneo_tenis/model/Tenista1.java:100-102 | `setAltura` changes only `altura`. |
| Model.SetPeso | src/main/java/com/torneo_tenis/model/Tenista1.java:104-106 | `setPeso` changes only `peso`. |
| Model.SetPuntos | src/main/java/com/torneo_tenis/model/Tenista1.java:108-110 | `setPuntos` changes only `puntos`. |
| Model.SetMano | src/main/java/com/torneo_tenis/model/Tenista1.java:112-114 | `setMano` changes only `mano`. |
| Model.SetFechaNacimiento | src/main/java/com/torneo_tenis/model/Tenista1.java:116-118 | `setFecha_nacimiento` changes only the birth date. |
| Model.SetCreatedAt | src/main/java/com/torneo_tenis/model/Tenista1.java:120-122 | `setCreated_at` changes only `created_at`. |
| Model.SetUpdatedAt | src/main/java/com/torneo_tenis/model/Tenista1.java:124-126 | `setUpdated_at` changes only `updated_at`. |
| Model.Copy | src/main/java/com/torneo_tenis/model/Tenista1.java:161-164 | `copy()` has the same ten fields as the original and is `equals` to it. |
| Model.UpdateTimestamp | src/main/java/com/torneo_tenis/model/Tenista1.java:169-171 | `updateTimestamp()` sets `updated_at` to the clock reading, changes nothing else, and keeps the record `equals` to the original. |
| Model.ManoNameLacks | src/main/java/com/torneo_tenis/io/CsvWriter.java:56 | `Mano.name()` holds only upper-case letters. |
| Model.IdTextLacks | src/main/java/com/torneo_tenis/io/XmlWriter.java:51 | A printed id (digits and sign, or `null`) holds no other character. |
| Validator.CheckText | src/main/java/com/torneo_tenis/validator/TenistaValidator.java:52-66 | The name or country check gives at most one message, and none exactly when the text is present, 2..max characters once trimmed, and matches the class. Each failing case gives its own message: blank, too short, too long, bad characters, tried in that order. |
| Validator.ValidarNombre | src/main/java/com/torneo_tenis/validator/TenistaValidator.java:52-66 | `validarNombre` gives at most one message, and none exactly when the name passes with bound 100. |
| Validator.ValidarPais | src/main/java/com/torneo_tenis/validator/TenistaValidator.java:71-85 | `validarPais` gives at most one message, and none exactly when the country passes with bound 50. |
| Validator.PaisIsNombreWithShorterBound | src/main/java/com/torneo_tenis/validator/TenistaValidator.java:52-85 | Every country `validarPais` accepts would pass as a name. A text of 51..100 trimmed characters passes only the name check. |
| Validator.CheckRange | src/main/java/com/torneo_tenis/validator/TenistaValidator.java:90-100 | A range check gives no message exactly inside [lo, hi], the "below" message under lo, and the "above" message over hi. |
| Validator.ValidarAltura | src/main/java/com/torneo_tenis/validator/TenistaValidator.java:90-100 | `validarAltura` passes exactly for 140..230. |
| Validator.ValidarPeso | src/main/java/com/torneo_tenis/validator/TenistaValidator.java:105-115 | `validarPeso` passes exactly for 40..150. |
| Validator.ValidarPuntos | src/main/java/com/torneo_tenis/validator/TenistaValidator.java:120-130 | `validarPuntos` passes exactly for 0..20000. |
| Validator.ValidarMano | src/main/java/com/torneo_tenis/validator/TenistaValidator.java:135-143 | `validarMano` passes exactly when the hand is not null. |
| Validator.ValidarFechaNacimiento | src/main/java/com/torneo_tenis/validator/TenistaValidator.java:148-166 | `validarFechaNacimiento` passes exactly for a non-null date that lies between 60 and 16 years before today, both ends included. |
| Validator.AgeWindowByBirthdays | src/main/java/com/torneo_tenis/validator/TenistaValidator.java:154-162 | The age window read as birthdays: at least 16 had, and fewer than 60 unless the 60th falls today. |
| Validator.ValidarEmptyIffFieldsValid | src/main/java/com/torneo_tenis/validator/TenistaValidator.java:29-47 | `validar` is empty exactly when all seven field rules hold. It has at most seven messages, and a bad name is reported first. |
| Validator.EsValido | src/main/java/com/torneo_tenis/validator/TenistaValidator.java:212-214 | `esValido` holds exactly when all seven field rules hold. |
| Validator.ValidarYArrojarExcepcion | src/main/java/com/torneo_tenis/validator/TenistaValidator.java:219-224 | The check passes exactly for a valid record. Otherwise it throws a `ValidationException` carrying all of `validar`'s messages, joined by ", ". |
| Validator.ValidarYConvertirFecha | src/main/java/com/torneo_tenis/validator/TenistaValidator.java:171-182 | Blank or null text throws "La fecha no puede estar vacía". Every failure is a `DateTimeParseException`, and a success is the parse of the trimmed text. |
| Validator.ValidarYConvertirMano | src/main/java/com/torneo_tenis/validator/TenistaValidator.java:187-207 | Blank or null text throws "La mano no puede estar vacía". Every failure is an `IllegalArgumentException`. It succeeds exactly when the trimmed, upper-cased text is an alias, and returns that alias's hand. |
| Validator.ManoAliasesDecide | src/main/java/com/torneo_tenis/validator/TenistaValidator.java:192-206 | For every text, the result is DERECHA exactly for DIESTRO/DERECHA/RIGHT and IZQUIERDA exactly for ZURDO/IZQUIERDA/LEFT, after trimming and upper-casing. |
| Validator.ConvertsAlias | src/main/java/com/torneo_tenis/validator/TenistaValidator.java:192-203 | Trimmed text whose upper-case form is an alias converts to that alias's hand. |
| Validator.ManoNameConverts | src/main/java/com/torneo_tenis/validator/TenistaValidator.java:187-203 | The name a writer prints for a hand converts back to that hand. |
| Validator.LowerManoNameConverts | src/main/java/com/torneo_tenis/validator/TenistaValidator.java:192-203 | The lower-case hand name converts too: case is ignored. |
| CsvReader.ValidateFilePath | src/main/java/com/torneo_tenis/io/CsvReader.java:92-112 | The path check passes exactly for a non-blank path to an existing, readable file whose lower-cased name ends in `.csv`. Each failure is an `IOException` with its own message, and the checks run in source order. |
| CsvReader.FirstMismatch | src/main/java/com/torneo_tenis/io/CsvReader.java:133-139 | The header loop stops at the first column that does not match; every column before it matches. |
| CsvReader.ValidateHeader | src/main/java/com/torneo_tenis/io/CsvReader.java:117-142 | A blank header and a header with the wrong column count fail with their messages. Otherwise the header passes exactly when valid, and a failure names the first mismatching column and its trimmed text. |
| CsvReader.HeaderAcceptedIff | src/main/java/com/torneo_tenis/io/CsvReader.java:117-142 | The header check passes exactly when the header has seven columns naming the expected ones in order, ignoring case and surrounding white space. |
| CsvReader.ParseInteger | src/main/java/com/torneo_tenis/io/CsvReader.java:209-219 | Empty text fails with the "no puede estar vacío" message. Other failures carry the value. It succeeds exactly for integer syntax in the `int` range, giving its value. |
| CsvReader.ParseIntegerOfIntToString | src/main/java/com/torneo_tenis/io/CsvReader.java:209-219 | Every `int` printed in decimal parses back to itself. |
| CsvReader.ConvertFields | src/main/java/com/torneo_tenis/io/CsvReader.java:157-171 | The conversions run in the order altura, peso, puntos, fecha, mano on trimmed fields. The first failure decides the exception, and only caught exception kinds escape. |
| CsvReader.NewRecord | src/main/java/com/torneo_tenis/io/CsvReader.java:176-187 | The built record has id 0, the trimmed name and country, the converted values, and `now` in both timestamps. |
| CsvReader.Build | src/main/java/com/torneo_tenis/io/CsvReader.java:189-195 | The record is kept exactly when `validar` finds nothing. Otherwise the exception carries every message joined by ", ". |
| CsvReader.Rewrap | src/main/java/com/torneo_tenis/io/CsvReader.java:197-203 | The three catch clauses turn each exception kind into an `IllegalArgumentException` with its prefix. |
| CsvReader.ParseLine | src/main/java/com/torneo_tenis/io/CsvReader.java:147-204 | A wrong field count fails with the count message, which is not rewrapped. Every failure is an `IllegalArgumentException`. |
| CsvReader.ParseLineConversionFails | src/main/java/com/torneo_tenis/io/CsvReader.java:166-203 | A line of seven fields whose conversion fails is rejected with the rewrapped conversion exception. |
| CsvReader.ParseLineBuilt | src/main/java/com/torneo_tenis/io/CsvReader.java:176-202 | A line that converts yields its record when valid. Otherwise it fails with "Error de validación: Datos inválidos: " and every message. |
| CsvReader.InputFieldsSplit | src/main/java/com/torneo_tenis/io/CsvReader.java:148 | A record written as seven comma-joined fields splits back into exactly those fields. |
| CsvReader.ConvertPrinted | src/main/java/com/torneo_tenis/io/CsvReader.java:166-171 | Fields holding the printed forms of converted values convert back to exactly those values. |
| CsvReader.ParseLineOfInputLine | src/main/java/com/torneo_tenis/io/CsvReader.java:147-195 | Round trip: a valid record with id 0, trimmed text and `now` timestamps, written as a data line, parses back to itself. |
| CsvReader.CountNonBlank | src/main/java/com/torneo_tenis/io/CsvReader.java:232-236 | The count of non-blank lines is at most the number of lines. |
| CsvReader.ProcesarCount | src/main/java/com/torneo_tenis/io/CsvReader.java:57-77 | Every non-blank line ends up exactly once, as a record or as an error. |
| CsvReader.ProcesarKeepsAccepted | src/main/java/com/torneo_tenis/io/CsvReader.java:57-69 | The loop's records are exactly the successful parses of the non-blank lines, in source order. |
| CsvReader.ProcesarLogsRejected | src/main/java/com/torneo_tenis/io/CsvReader.java:70-74 | The loop's errors are exactly the failed parses of the non-blank lines, in source order, each with its file line number. |
| CsvReader.ProcesarAccepted | src/main/java/com/torneo_tenis/io/CsvReader.java:64-69 | Each kept record is the parse of some non-blank data line. |
| CsvReader.ProcesarValid | src/main/java/com/torneo_tenis/io/CsvReader.java:173-193 | Each kept record passed `validar` against its own line's date, has id 0, and carries its line's instant in both timestamps. |
| CsvReader.LineRecord | src/main/java/com/torneo_tenis/io/CsvReader.java:157-195 | A successful parse is valid, has id 0 and the line's trimmed name and country, and carries `now` in both timestamps. |
| CsvReader.BlankLineSkipped | src/main/java/com/torneo_tenis/io/CsvReader.java:58-62 | A blank line changes nothing, but still advances the line number of the line after it. |
| CsvReader.ProcesarPrefix | src/main/java/com/torneo_tenis/io/CsvReader.java:57-77 | Reading more lines only appends records and errors. |
| CsvReader.LeerTenistas | src/main/java/com/torneo_tenis/io/CsvReader.java:37-87 | The path check, the empty-file check and the header check decide the failures, in that order. On success the result is the loop over the data lines: Java returns its records, and its error list is what Java logs. |
| CsvReader.LeerLineas | src/main/java/com/torneo_tenis/io/CsvReader.java:54-77 | The imperative loop, with its counter starting at 2, computes the fold `Procesar`. |
| CsvReader.ContarLineasValidas | src/main/java/com/torneo_tenis/io/CsvReader.java:224-241 | After the path check, the result is the count of non-blank lines after the first, and 0 for an empty file. |
| Cache.New | src/main/java/com/torneo_tenis/cache/TenistaCache.java:31-34 | The constructor rejects a size ≤ 0 with its message. Otherwise it gives a valid, empty cache of that size. |
| Cache.Default | src/main/java/com/torneo_tenis/cache/TenistaCache.java:24-26 | The no-argument constructor gives a valid, empty cache of size 10. |
| Cache.Get | src/main/java/com/torneo_tenis/cache/TenistaCache.java:45-58 | `get` gives the stored record exactly when `contains` holds, and nothing for a null id. |
| Cache.Put | src/main/java/com/torneo_tenis/cache/TenistaCache.java:63-87 | `put` keeps the invariant. A null id or record is a no-op. A present id is replaced in place. A new id is appended, and when the cache is full the oldest key is evicted first. No other entry changes. |
| Cache.Remove | src/main/java/com/torneo_tenis/cache/TenistaCache.java:92-103 | `remove` reports whether the id was present and removes only it. The id is cut out of the key order where it stood, so the other keys keep their insertion order; an absent id leaves the order unchanged. The size shrinks by one exactly when the id was present, and the invariant holds. |
| Cache.Clear | src/main/java/com/torneo_tenis/cache/TenistaCache.java:108-111 | `clear` leaves a valid, empty cache with the same bound. |
| Cache.Update | src/main/java/com/torneo_tenis/cache/TenistaCache.java:159-170 | `update` replaces a present id's record without reordering and reports true. Otherwise it changes nothing and reports false. |
| Cache.SizeIsEntryCount | src/main/java/com/torneo_tenis/cache/TenistaCache.java:123-139 | The map has as many entries as the order has keys, so `size`, `isEmpty` and `isFull` can read either. |
| Cache.PutAllKeepsNewest | src/main/java/com/torneo_tenis/cache/TenistaCache.java:76-86 | Putting records with new distinct ids keeps the newest `maxSize` of them, in insertion order: first in, first out. |
| CsvWriter.HeaderColumns | src/main/java/com/torneo_tenis/io/CsvWriter.java:20 | The header splits back into the ten column names. |
| CsvWriter.Escape | src/main/java/com/torneo_tenis/io/CsvWriter.java:66-76 | `escaparCSV` turns null into "". A value without a comma, quote or line feed is unchanged. Any other value is enclosed in quotes. |
| CsvWriter.EscapeRoundTrip | src/main/java/com/torneo_tenis/io/CsvWriter.java:71-73 | Unquoting an escaped value (section 2 of RFC 4180) gives the value back. |
| CsvWriter.EscapeKeepsAbsent | src/main/java/com/torneo_tenis/io/CsvWriter.java:71-73 | Escaping adds no character other than the double quote. |
| CsvWriter.Fields | src/main/java/com/torneo_tenis/io/CsvWriter.java:48-60 | A record line has one field per column name. |
| CsvWriter.FieldsLack | src/main/java/com/torneo_tenis/io/CsvWriter.java:48-60 | No field holds a character absent from the name, the country, the id, the hand name and numeric text. |
| CsvWriter.LineSplitsIntoFields | src/main/java/com/torneo_tenis/io/CsvWriter.java:49-60 | When the name and the country hold no comma, a record line splits into exactly its ten fields. |
| CsvWriter.NumbersReadBack | src/main/java/com/torneo_tenis/io/CsvWriter.java:53-55 | The written height, weight and points parse back to the record's values. |
| CsvWriter.TextsReadBack | src/main/java/com/torneo_tenis/io/CsvWriter.java:51-52 | The written name and country unquote to the record's texts. |
| CsvWriter.DateReadBack | src/main/java/com/torneo_tenis/io/CsvWriter.java:57 | The written birth date parses back, for four-digit years. |
| CsvWriter.TerminatedJoin | src/main/java/com/torneo_tenis/io/CsvWriter.java:34-37 | Lines each followed by `newLine()` are the lines joined by line feeds, ending in one. |
| CsvWriter.LineLacksNewline | src/main/java/com/torneo_tenis/io/CsvWriter.java:48-60 | A record line holds no line feed when its name and country hold none. |
| CsvWriter.DocumentLines | src/main/java/com/torneo_tenis/io/CsvWriter.java:28-37 | The file's lines are the header, then one line per record in list order, then the empty rest after the last line feed. |
| XmlWriter.Escape | src/main/java/com/torneo_tenis/io/XmlWriter.java:68-78 | `escaparXML` turns null into "", and leaves a value without any of `& < > " '` unchanged. |
| XmlWriter.ReplacedIsEncode | src/main/java/com/torneo_tenis/io/XmlWriter.java:73-77 | The chain of five `replace` calls, `&` first, equals encoding each character separately. |
| XmlWriter.DecodeEncode | src/main/java/com/torneo_tenis/io/XmlWriter.java:73-77 | Entity decoding undoes the per-character encoding. |
| XmlWriter.EscapeRoundTrip | src/main/java/com/torneo_tenis/io/XmlWriter.java:68-78 | Decoding an escaped value gives the value back. |
| XmlWriter.EscapeMarkupFree | src/main/java/com/torneo_tenis/io/XmlWriter.java:73-77 | No `<`, `>`, `"` or `'` survives escaping. |
| XmlWriter.EncodeAmpersands | src/main/java/com/torneo_tenis/io/XmlWriter.java:73-77 | In the per-character encoding, every `&` begins one of the five predefined entities. |
| XmlWriter.EscapeAmpersands | src/main/java/com/torneo_tenis/io/XmlWriter.java:73-77 | Because `&` is replaced first, every `&` left in an escaped value, null included, begins `&amp;`, `&lt;`, `&gt;`, `&quot;` or `&apos;`. |
| XmlWriter.Values | src/main/java/com/torneo_tenis/io/XmlWriter.java:51-60 | A record has one element content per column name. |
| XmlWriter.ValuesMarkupFree | src/main/java/com/torneo_tenis/io/XmlWriter.java:51-60 | No element content holds a `<`. |
| XmlWriter.ElementTags | src/main/java/com/torneo_tenis/io/XmlWriter.java:51 | A child line holds exactly two `<`, one for its opening tag and one for its closing tag. |
| XmlWriter.BlockTags | src/main/java/com/torneo_tenis/io/XmlWriter.java:48-63 | A record's element holds exactly 2 + 2·10 `<`: every `<` is a tag. |
| XmlWriter.BlocksAppend | src/main/java/com/torneo_tenis/io/XmlWriter.java:32-34 | Writing two lists in turn writes the first list's elements, then the second's. |
| XmlWriter.BlocksTags | src/main/java/com/torneo_tenis/io/XmlWriter.java:32-34 | The records' elements hold 22 `<` per record. |
| XmlWriter.DocumentTags | src/main/java/com/torneo_tenis/io/XmlWriter.java:23-43 | The file holds exactly 3 + 22·n `<`: the declaration, the root tags and the records' tags, so no text adds markup. |
| XmlWriter.NumbersReadBack | src/main/java/com/torneo_tenis/io/XmlWriter.java:54-56 | The written height, weight and points parse back. |
| XmlWriter.TextsReadBack | src/main/java/com/torneo_tenis/io/XmlWriter.java:52-53 | The written name and country decode to the record's texts. |
| JsonWriter.Escape | src/main/java/com/torneo_tenis/io/JsonWriter.java:72-82 | `escaparJSON` turns null into "", and leaves a value without backslash, quote, LF, CR or tab unchanged. |
| JsonWriter.ReplacedIsEncode | src/main/java/com/torneo_tenis/io/JsonWriter.java:77-81 | The chain of five `replace` calls, backslash first, equals escaping each character separately. |
| JsonWriter.DecodeEncode | src/main/java/com/torneo_tenis/io/JsonWriter.java:77-81 | Backslash decoding undoes the per-character escaping. |
| JsonWriter.EscapeRoundTrip | src/main/java/com/torneo_tenis/io/JsonWriter.java:72-82 | Decoding an escaped value gives the value back. |
| JsonWriter.EscapeIsStringBody | src/main/java/com/torneo_tenis/io/JsonWriter.java:77-81 | An escaped value is a well-formed string body under section 7 of RFC 8259, unless it holds a control character other than LF, CR and tab. |
| JsonWriter.EscapeOneLine | src/main/java/com/torneo_tenis/io/JsonWriter.java:79-81 | No line break or tab survives escaping. |
| JsonWriter.UnquoteQuote | src/main/java/com/torneo_tenis/io/JsonWriter.java:50 | The text between a string's quotes is the quoted text. |
| JsonWriter.Values | src/main/java/com/torneo_tenis/io/JsonWriter.java:49-58 | A record has one member value per column name. |
| JsonWriter.Members | src/main/java/com/torneo_tenis/io/JsonWriter.java:49-58 | A record has one member line per column name. |
| JsonWriter.ObjectsFirst | src/main/java/com/torneo_tenis/io/JsonWriter.java:30-32 | The loop writes the first record's object first, with `esUltimo` true exactly when it is the only one. |
| JsonWriter.ObjectsJoin | src/main/java/com/torneo_tenis/io/JsonWriter.java:61-65 | The array holds the objects separated by ",\n", with no comma after the last. |
| JsonWriter.EmptyDocument | src/main/java/com/torneo_tenis/io/JsonWriter.java:27-35 | An empty list is written as an empty `tenistas` array. |
| JsonWriter.NumbersReadBack | src/main/java/com/torneo_tenis/io/JsonWriter.java:52-54 | The written height, weight and points parse back. |
| JsonWriter.TextsReadBack | src/main/java/com/torneo_tenis/io/JsonWriter.java:50-51 | The written name and country, unquoted and decoded, are the record's texts. |
| Dispatch.Extension | src/main/java/com/torneo_tenis/Main.java:209-212 | The extension never holds a dot. |
| Dispatch.ArgumentsHelp | src/main/java/com/torneo_tenis/Main.java:22-25 | The help is shown exactly for zero or more than two arguments. |
| Dispatch.DefaultOutputIsJson | src/main/java/com/torneo_tenis/Main.java:27-28 | With one argument, the output is `torneo_tenis.json`, which selects the JSON writer. |
| Dispatch.ExtensionOf | src/main/java/com/torneo_tenis/Main.java:209-212 | For a non-empty stem, the extension is exactly the text after the last dot. |
| Dispatch.NoExtensionIsJson | src/main/java/com/torneo_tenis/Main.java:211 | A name with no dot after its first character is written as JSON. |
| Dispatch.FormatIgnoresCase | src/main/java/com/torneo_tenis/Main.java:190 | The extension's letter case does not change the writer. |
| Dispatch.OutputByExtension | src/main/java/com/torneo_tenis/Main.java:189-202 | The output is the CSV, XML or JSON document according to the lower-cased extension, and JSON for any other. |
| Dispatch.MainCacheNewest | src/main/java/com/torneo_tenis/Main.java:33-54 | With distinct saved ids, `main`'s cache ends holding the ids of the last five saved records, oldest first. |
| JavaText.Trim | src/main/java/com/torneo_tenis/validator/TenistaValidator.java:55 | `trim` removes exactly the leading and trailing characters ≤ U+0020. It is empty exactly for blank text, and leaves already-trimmed text unchanged. |
| JavaText.TrimIsSlice | src/main/java/com/torneo_tenis/io/CsvReader.java:157 | The trimmed text is a slice of the original with only trimmed characters around it. |
| JavaText.ToUpper | src/main/java/com/torneo_tenis/validator/TenistaValidator.java:192 | `toUpperCase` maps each character and keeps the length. |
| JavaText.ToLower | src/main/java/com/torneo_tenis/Main.java:190 | `toLowerCase` maps each character and keeps the length. |
| JavaText.ReplaceChar | src/main/java/com/torneo_tenis/io/CsvWriter.java:72 | `replace` of a character is the identity on text without it. A replacement lacking the character leaves none behind. |
| JavaText.ReplaceCharKeepsAbsent | src/main/java/com/torneo_tenis/io/CsvWriter.java:72 | `replace` adds no character that neither the text nor the replacement holds. |
| JavaText.JoinKeepsAbsent | src/main/java/com/torneo_tenis/io/CsvWriter.java:49 | `String.join` adds no character that neither the parts nor the separator hold. |
| JavaText.JavaSplit | src/main/java/com/torneo_tenis/io/CsvReader.java:148 | `split` gives one field for text without the delimiter, and no field holds the delimiter. |
| JavaText.JavaSplitOfJoin | src/main/java/com/torneo_tenis/io/CsvReader.java:148 | Splitting delimiter-free parts joined by the delimiter, the last part non-empty, gives the parts back. |
| JavaText.LastIndexOf | src/main/java/com/torneo_tenis/Main.java:210 | `lastIndexOf` is -1 or the position of the character, with no occurrence after it. |
| JavaText.ConcatMapAppend | src/main/java/com/torneo_tenis/io/XmlWriter.java:32-34 | A writer fed two lists in turn writes the first list's texts, then the second's. |
| Numbers.NatToStringValue | src/main/java/com/torneo_tenis/io/CsvWriter.java:53 | `String.valueOf` of a non-negative number is digits whose value is that number. |
| Numbers.NatToStringDigits | src/main/java/com/torneo_tenis/io/CsvWriter.java:53 | Printed numbers have no leading zero. |
| Numbers.ZeroPadValue | src/main/java/com/torneo_tenis/io/CsvWriter.java:21-22 | A zero-padded field is digits of at least the width whose value is the number. |
| Numbers.ParseInt | src/main/java/com/torneo_tenis/io/CsvReader.java:215 | `Integer.parseInt` rejects the empty string. |
| Numbers.IntToStringParses | src/main/java/com/torneo_tenis/io/CsvReader.java:215 | `Integer.parseInt(String.valueOf(n)) == n` for every `int`. |
| Dates.MinusYears | src/main/java/com/torneo_tenis/validator/TenistaValidator.java:155-156 | `minusYears` keeps the month and the day, except that a day the target month lacks becomes that month's last day. |
| Dates.NotAfterMinusYearsIsAge | src/main/java/com/torneo_tenis/validator/TenistaValidator.java:156-161 | Not after today minus n years means at least n birthdays had. |
| Dates.ParseDate | src/main/java/com/torneo_tenis/validator/TenistaValidator.java:177 | A parsed date has the `yyyy-MM-dd` shape and a year in 1..9999. |
| Dates.ParseFormatDate | src/main/java/com/torneo_tenis/validator/TenistaValidator.java:177 | Printing a date of years 1..9999 and parsing it back gives the date. |
| Dates.FormatDateTimeNumeric | src/main/java/com/torneo_tenis/io/CsvWriter.java:58 | A printed timestamp holds only digits and `- + T : .`. |
| Dates.FormatDateLacks | src/main/java/com/torneo_tenis/io/CsvWriter.java:57 | A printed date holds no character outside the numeric ones. |
| Dates.FormatDateTimeLacks | src/main/java/com/torneo_tenis/io/CsvWriter.java:58-59 | A printed timestamp holds no character outside the numeric ones. |
| Dates.IntToStringLacks | src/main/java/com/torneo_tenis/io/CsvWriter.java:53-55 | A printed number holds no character outside the numeric ones. |

## Left out

- ParseInteger: accepts ASCII digits `0`..`9` only. `Integer.parseInt` accepts every Unicode decimal digit, so `١٨٥` parses to 185 in Java but fails here. `Numbers.IsIntegerSyntax` and `Numbers.ParseInt` share this restriction.
- ValidarYConvertirMano: case mapping covers ASCII letters only. Java's locale-dependent `toUpperCase` maps more, so `rıght` (dotless i) converts to DERECHA in Java but fails here.
- ValidateHeader: `equalsIgnoreCase` is ASCII-only here, so a header cell `paıs` that Java accepts is rejected. `JavaText.ToUpper`, `JavaText.ToLower` and `JavaText.EqualsIgnoreCase` share this restriction, and so does `Dispatch.FormatOf`.
- CheckText: lengths count code points, while Java's `String.length()` counts UTF-16 units. A name of one character outside the Basic Multilingual Plane is "too short" here, but has length 2 in Java. `ValidarNombre` and `ValidarPais` inherit this.
- ParseDate: only four-digit years are read. `yyyy` also reads a `+` sign followed by more digits (`+12345-01-01`), which is rejected here. Days past the end of the month are moved back to its last day, as Java's default resolver does for this pattern.
- The clock: every `LocalDate.now()` and `LocalDateTime.now()` is a parameter. The reader's loop takes one `Reading` (a date and an instant) per data line, which it can choose freely, so the model does not relate the two readings of one line.
- The repository and JDBC (`TenistaRepository`, `deleteAll`, `save`): not part of this model. The records `save` returns, with their assigned ids, are the parameter of `Dispatch.MainCache`.
- File input and output: a file is a readable flag plus its lines, as `readLine` returns them. A writer's file is the string it writes, with `newLine()` as a line feed. `Paths.get` failures, encodings and I/O errors are not modelled.
- Logging (`logger.*`) and the console output of `main`: effects only, left out. The reader's logged error lines are kept as the `errores` list of `CsvReader.Lectura`, so their content and order can be stated.
- `mostrarConsultas`, `mostrarAyuda` and the rest of `Main`'s statistics: console reports with no effect on the files, left out.
- `TenistaCache.getStats`, `TenistaCache.toString` and `Tenista1.toString`: display text only, left out.
- The cache is a value and each mutator returns the new cache, instead of a class mutated in place. Thread safety is not a concern of the source.
- Null hands, birth dates or timestamps passed to a writer: Java throws `NullPointerException` when dereferencing them. The writers require them present (`Renderable`) rather than modelling the exception.
- EscapeIsStringBody: `escaparJSON` leaves control characters other than LF, CR and tab unescaped, so the lemma requires the value to hold none of them. `IsEscapable` lists the single-character escapes of RFC 8259 and leaves out `\u`, which the writer never produces.
- NeedsQuotes: `escaparCSV` quotes on comma, double quote and line feed only. A lone carriage return is written unquoted, as in the source.
- `Tenista1` field getters and the constructors: the datatype's fields and constructor are used directly.

=== FILE: cache.dfy ===
/** `TenistaCache`: a bounded FIFO cache of records by id. The
    `LinkedHashMap` is its key sequence in insertion order plus the map from
    keys to records; each mutating Java method becomes a function from the
    old cache to the new one (and its boolean result, where it has one). */
module Cache {
  import opened Wrappers
  import opened Numbers
  import opened Model

  /** The size the no-argument constructor uses. */
  const DefaultMaxSize: Int32 := 10

  datatype Fifo = Fifo(maxSize: Int32, keys: seq<Int64>, entries: map<Int64, Tenista>)

  ghost predicate Distinct(s: seq<Int64>) {
    forall i, j | 0 <= i < j < |s| :: s[i] != s[j]
  }

  /** The invariant every cache the constructor builds keeps: a positive
      bound, at most that many keys, each key once, and the map holding
      exactly the keys of the order. */
  ghost predicate Valid(c: Fifo) {
    && c.maxSize > 0
    && |c.keys| <= c.maxSize
    && Distinct(c.keys)
    && (forall k :: k in c.entries <==> k in c.keys)
  }

  /** `new TenistaCache(maxSize)`: a non-positive bound is rejected. */
  function New(maxSize: Int32): (r: Result<Fifo>)
    ensures r.Failure? <==> maxSize <= 0
    ensures r.Failure? ==> r.error == IllegalArgumentException("El tamaño máximo debe ser mayor que 0")
    ensures r.Success? ==> Valid(r.value) && r.value.maxSize == maxSize && Size(r.value) == 0
  {
    if maxSize <= 0 then Failure(IllegalArgumentException("El tamaño máximo debe ser mayor que 0"))
    else Success(Fifo(maxSize, [], map[]))
  }

  /** `new TenistaCache()`. */
  function Default(): (r: Fifo)
    ensures Valid(r) && r.maxSize == 10 && Size(r) == 0
  {
    New(DefaultMaxSize).value
  }

  /** `get`: the stored record, or nothing for a null or absent id. */
  function Get(c: Fifo, id: Option<Int64>): (r: Option<Tenista>)
    ensures r.Some? <==> Contains(c, id)
    ensures r.Some? ==> r.value == c.entries[id.value]
  {
    if id.Some? && id.value in c.entries then Some(c.entries[id.value]) else None
  }

  /** `contains`: a non-null id with an entry. */
  predicate Contains(c: Fifo, id: Option<Int64>) {
    id.Some? && id.value in c.entries
  }

  /** `size`. */
  function Size(c: Fifo): nat {
    |c.keys|
  }

  /** `isEmpty`. */
  predicate IsEmpty(c: Fifo) {
    Size(c) == 0
  }

  /** `isFull`. */
  predicate IsFull(c: Fifo) {
    Size(c) >= c.maxSize
  }

  /** `getMaxSize`. */
  function GetMaxSize(c: Fifo): Int32 {
    c.maxSize
  }

  /** `a` and `b` agree on every id except `x` (and `y`). */
  ghost predicate SameElsewhere(a: Fifo, b: Fifo, x: Int64, y: Int64) {
    forall k | k != x && k != y :: Get(a, Some(k)) == Get(b, Some(k))
  }

  /** The order without `x`. */
  function Without(s: seq<Int64>, x: Int64): (r: seq<Int64>)
    ensures forall k :: k in r <==> k in s && k != x
  {
    if s == [] then [] else (if s[0] == x then [] else [s[0]]) + Without(s[1..], x)
  }

  /** `put`: a null id or record changes nothing; a present id keeps its
      place and gets the new record; a new id goes last, after the oldest
      id is evicted when the cache is full. */
  function Put(c: Fifo, id: Option<Int64>, t: Option<Tenista>): (r: Fifo)
    requires Valid(c)
    ensures Valid(r) && r.maxSize == c.maxSize
    ensures id.None? || t.None? ==> r == c
    ensures id.Some? && t.Some? ==> Get(r, id) == t
    ensures id.Some? && t.Some? && Contains(c, id) ==>
              r.keys == c.keys && SameElsewhere(r, c, id.value, id.value)
    ensures id.Some? && t.Some? && !Contains(c, id) && !IsFull(c) ==>
              r.keys == c.keys + [id.value] && SameElsewhere(r, c, id.value, id.value)
    ensures id.Some? && t.Some? && !Contains(c, id) && IsFull(c) ==>
              && r.keys == c.keys[1..] + [id.value]
              && !Contains(r, Some(c.keys[0]))
              && SameElsewhere(r, c, id.value, c.keys[0])
  {
    if id.None? || t.None? then c
    else if id.value in c.entries then c.(entries := c.entries[id.value := t.value])
    else if |c.keys| >= c.maxSize then
      var oldest := c.keys[0];
      assert oldest in c.keys;
      Fifo(c.maxSize, c.keys[1..] + [id.value], (c.entries - {oldest})[id.value := t.value])
    else Fifo(c.maxSize, c.keys + [id.value], c.entries[id.value := t.value])
  }

  /** `remove`: reports whether the id was present, and only that id goes. */
  function Remove(c: Fifo, id: Option<Int64>): (r: (Fifo, bool))
    requires Valid(c)
    ensures Valid(r.0) && r.0.maxSize == c.maxSize
    ensures r.1 <==> Contains(c, id)
    ensures !Contains(r.0, id)
    ensures Size(r.0) == Size(c) - (if r.1 then 1 else 0)
    ensures id.Some? ==> SameElsewhere(r.0, c, id.value, id.value)
    ensures id.None? ==> r.0 == c
    ensures !r.1 ==> r.0.keys == c.keys
    ensures forall i | 0 <= i < |c.keys| && Some(c.keys[i]) == id :: r.0.keys == c.keys[..i] + c.keys[i + 1..]
  {
    if id.None? then (c, false)
    else
      var x := id.value;
      var keys := Without(c.keys, x);
      WithoutDistinct(c.keys, x);
      WithoutSplice(c.keys, x);
      (Fifo(c.maxSize, keys, c.entries - {x}), x in c.entries)
  }

  /** The keys left after removing `x` keep their order: `x` is cut out
      where it stands, and nothing changes when it is absent. */
  lemma {:induction false} WithoutSplice(s: seq<Int64>, x: Int64)
    requires Distinct(s)
    ensures x !in s ==> Without(s, x) == s
    ensures forall i | 0 <= i < |s| && s[i] == x :: Without(s, x) == s[..i] + s[i + 1..]
  {
    if s != [] {
      var tail := s[1..];
      DistinctTail(s);
      WithoutSplice(tail, x);
      if s[0] == x {
        assert x !in tail by {
          forall j | 0 <= j < |tail| ensures tail[j] != x {
            assert tail[j] == s[j + 1];
          }
        }
        forall i | 0 <= i < |s| && s[i] == x ensures Without(s, x) == s[..i] + s[i + 1..] {
          assert i == 0;
        }
      } else {
        assert s == [s[0]] + tail;
        forall i | 0 <= i < |s| && s[i] == x ensures Without(s, x) == s[..i] + s[i + 1..] {
          assert tail[i - 1] == x;
          CutCons(s, i);
        }
      }
    }
  }

  /** Cutting out position `i > 0` keeps the head in front. */
  lemma CutCons(s: seq<Int64>, i: nat)
    requires 0 < i < |s|
    ensures s[..i] + s[i + 1..] == [s[0]] + (s[1..][..i - 1] + s[1..][i..])
  {
    assert s[..i] == [s[0]] + s[1..][..i - 1];
    assert s[i + 1..] == s[1..][i..];
  }

  /** The tail of a sequence without repeats has none either. */
  lemma DistinctTail(s: seq<Int64>)
    requires Distinct(s) && s != []
    ensures Distinct(s[1..])
  {
    forall i, j | 0 <= i < j < |s[1..]| ensures s[1..][i] != s[1..][j] {
      assert s[1..][i] == s[i + 1] && s[1..][j] == s[j + 1];
    }
  }

  /** Removing a key from a sequence without repeats keeps it without
      repeats and shortens it by one exactly when the key was there. */
  lemma {:induction false} WithoutDistinct(s: seq<Int64>, x: Int64)
    requires Distinct(s)
    ensures Distinct(Without(s, x))
    ensures |Without(s, x)| == |s| - (if x in s then 1 else 0)
  {
    if s != [] {
      assert Distinct(s[1..]) by {
        forall i, j | 0 <= i < j < |s[1..]| ensures s[1..][i] != s[1..][j] {
          assert s[1..][i] == s[i + 1] && s[1..][j] == s[j + 1];
        }
      }
      WithoutDistinct(s[1..], x);
      var rest := Without(s[1..], x);
      assert s[0] !in s[1..] by {
        forall j | 0 <= j < |s[1..]| ensures s[1..][j] != s[0] {
          assert s[1..][j] == s[j + 1];
        }
      }
      if s[0] != x {
        assert Without(s, x) == [s[0]] + rest;
        forall i, j | 0 <= i < j < |[s[0]] + rest| ensures ([s[0]] + rest)[i] != ([s[0]] + rest)[j] {
          if i == 0 {
            assert ([s[0]] + rest)[j] == rest[j - 1];
            assert rest[j - 1] in rest;
          } else {
            assert ([s[0]] + rest)[i] == rest[i - 1] && ([s[0]] + rest)[j] == rest[j - 1];
          }
        }
      } else {
        assert x !in s[1..];
        assert Without(s, x) == rest;
      }
    }
  }

  /** `clear`: every entry goes; the bound stays. */
  function Clear(c: Fifo): (r: Fifo)
    requires Valid(c)
    ensures Valid(r) && r.maxSize == c.maxSize && IsEmpty(r)
    ensures forall k :: !Contains(r, Some(k))
  {
    Fifo(c.maxSize, [], map[])
  }

  /** `update`: the record of a present id is replaced, without touching
      the order; otherwise nothing changes. Reports whether it was present. */
  function Update(c: Fifo, id: Option<Int64>, t: Option<Tenista>): (r: (Fifo, bool))
    requires Valid(c)
    ensures Valid(r.0) && r.0.maxSize == c.maxSize && r.0.keys == c.keys
    ensures r.1 <==> id.Some? && t.Some? && Contains(c, id)
    ensures r.1 ==> Get(r.0, id) == t && SameElsewhere(r.0, c, id.value, id.value)
    ensures !r.1 ==> r.0 == c
  {
    if id.None? || t.None? || id.value !in c.entries then (c, false)
    else (c.(entries := c.entries[id.value := t.value]), true)
  }

  /** The map has exactly as many entries as the order has keys, so `size`,
      `isEmpty` and `isFull` can read either. */
  lemma SizeIsEntryCount(c: Fifo)
    requires Valid(c)
    ensures |c.entries.Keys| == Size(c)
    ensures IsEmpty(c) <==> c.entries == map[]
  {
    DistinctCard(c.keys, c.entries.Keys);
  }

  /** A set holding exactly the elements of a sequence without repeats
      has the sequence's length. */
  lemma {:induction false} DistinctCard(s: seq<Int64>, m: set<Int64>)
    requires Distinct(s)
    requires forall k :: k in m <==> k in s
    ensures |m| == |s|
  {
    if s != [] {
      var last := s[|s| - 1];
      var init := s[..|s| - 1];
      assert s == init + [last];
      assert Distinct(init) by {
        forall i, j | 0 <= i < j < |init| ensures init[i] != init[j] {
          assert init[i] == s[i] && init[j] == s[j];
        }
      }
      assert last !in init by {
        forall j | 0 <= j < |init| ensures init[j] != last {
          assert init[j] == s[j];
        }
      }
      DistinctCard(init, m - {last});
    }
  }

  /** The loop of `main` that caches every saved record, by its id. */
  function PutAll(c: Fifo, ts: seq<Tenista>): (r: Fifo)
    requires Valid(c)
    ensures Valid(r) && r.maxSize == c.maxSize
  {
    if ts == [] then c else Put(PutAll(c, ts[..|ts| - 1]), ts[|ts| - 1].id, Some(ts[|ts| - 1]))
  }

  /** The ids of `ts`, all of which are present. */
  function Ids(ts: seq<Tenista>): (r: seq<Int64>)
    requires forall k | 0 <= k < |ts| :: ts[k].id.Some?
    ensures |r| == |ts| && forall k | 0 <= k < |ts| :: r[k] == ts[k].id.value
  {
    if ts == [] then [] else Ids(ts[..|ts| - 1]) + [ts[|ts| - 1].id.value]
  }

  /** The last `n` elements of `s` (all of them if it is shorter). */
  function Newest(s: seq<Int64>, n: nat): (r: seq<Int64>)
    ensures |r| == if |s| <= n then |s| else n
  {
    if |s| <= n then s else s[|s| - n..]
  }

  /** Appending to a sequence and keeping the newest `n` either keeps all
      the old newest or drops the oldest of them. */
  lemma NewestSnoc(s: seq<Int64>, x: Int64, n: nat)
    requires n > 0
    ensures |Newest(s, n)| < n ==> Newest(s + [x], n) == Newest(s, n) + [x]
    ensures |Newest(s, n)| == n ==> Newest(s + [x], n) == Newest(s, n)[1..] + [x]
  {
    if |s| >= n {
      assert (s + [x])[|s| + 1 - n..] == s[|s| - n..][1..] + [x];
    }
  }

  lemma NewestIn(s: seq<Int64>, n: nat, x: Int64)
    requires x !in s
    ensures x !in Newest(s, n)
  {
    if |s| > n {
      var t := s[|s| - n..];
      forall j | 0 <= j < |t| ensures t[j] != x {
        assert t[j] == s[|s| - n + j];
      }
    }
  }

  /** Caching records with distinct new ids keeps the newest `maxSize` of
      them, in insertion order: first in, first out. */
  lemma {:induction false} PutAllKeepsNewest(c: Fifo, ts: seq<Tenista>)
    requires Valid(c)
    requires forall k | 0 <= k < |ts| :: ts[k].id.Some? && ts[k].id.value !in c.keys
    requires Distinct(Ids(ts))
    ensures PutAll(c, ts).keys == Newest(c.keys + Ids(ts), c.maxSize)
  {
    if ts != [] {
      var init := ts[..|ts| - 1];
      var x := ts[|ts| - 1].id.value;
      var all := c.keys + Ids(init);
      IdsSnoc(ts, c.keys);
      PutAllKeepsNewest(c, init);
      NewestIn(all, c.maxSize, x);
      NewestSnoc(all, x, c.maxSize);
    }
  }

  /** The facts about the last record the induction step needs: the ids
      of the others still have no repeats, and its id is new. */
  lemma IdsSnoc(ts: seq<Tenista>, prior: seq<Int64>)
    requires ts != []
    requires forall k | 0 <= k < |ts| :: ts[k].id.Some? && ts[k].id.value !in prior
    requires Distinct(Ids(ts))
    ensures var init := ts[..|ts| - 1];
            && Distinct(Ids(init))
            && prior + Ids(ts) == (prior + Ids(init)) + [ts[|ts| - 1].id.value]
            && ts[|ts| - 1].id.value !in prior + Ids(init)
  {
    var init := ts[..|ts| - 1];
    var x := ts[|ts| - 1].id.value;
    assert Ids(ts) == Ids(init) + [x];
    forall i, j | 0 <= i < j < |Ids(init)| ensures Ids(init)[i] != Ids(init)[j] {
      assert Ids(init)[i] == Ids(ts)[i] && Ids(init)[j] == Ids(ts)[j];
    }
    forall j | 0 <= j < |Ids(init)| ensures Ids(init)[j] != x {
      assert Ids(init)[j] == Ids(ts)[j];
    }
  }
}

=== FILE: csv_reader.dfy ===
/** `CsvReader`: the file checks, the header check, the parsing of one data
    line into a record, and the line loop of `leerTenistas`, over a file
    system given as a map from paths to line sequences. `LocalDate.now()`
    and `LocalDateTime.now()` are the parameters `today` and `now` of one
    line, and a clock giving one such reading per data line for the loop. */
module CsvReader {
  import opened Wrappers
  import opened Numbers
  import opened Dates
  import opened JavaText
  import opened Model
  import opened Validator

  const Separator: char := ','
  const ExpectedColumns: nat := 7
  const ExpectedHeaders: seq<string> := ["nombre", "pais", "altura", "peso", "puntos", "mano", "fecha_nacimiento"]

  /** A file as `BufferedReader.readLine` sees it: its lines without terminators. */
  datatype FileEntry = FileEntry(readable: bool, lines: seq<string>)

  /** The files that exist, by path. */
  datatype FileSystem = FileSystem(files: map<string, FileEntry>)

  predicate EndsWith(s: string, suffix: string) {
    |suffix| <= |s| && s[|s| - |suffix|..] == suffix
  }

  /** What `validateFilePath` accepts. */
  predicate PathOk(path: Option<string>, fs: FileSystem) {
    path.Some? && !IsBlank(path.value) && path.value in fs.files
    && fs.files[path.value].readable && EndsWith(ToLower(path.value), ".csv")
  }

  /** `validateFilePath`: blank, missing, unreadable and non-`.csv` paths are
      rejected, in that order, each with its own `IOException`. */
  function ValidateFilePath(path: Option<string>, fs: FileSystem): (r: Outcome)
    ensures r.Pass? <==> PathOk(path, fs)
    ensures r.Fail? ==> r.error.IOException?
    ensures (path.None? || IsBlank(path.value)) ==>
              r == Fail(IOException("La ruta del archivo no puede estar vacía"))
    ensures path.Some? && !IsBlank(path.value) && path.value !in fs.files ==>
              r == Fail(IOException("El archivo no existe: " + path.value))
  {
    if path.None? || IsBlank(path.value) then Fail(IOException("La ruta del archivo no puede estar vacía"))
    else if path.value !in fs.files then Fail(IOException("El archivo no existe: " + path.value))
    else if !fs.files[path.value].readable then Fail(IOException("El archivo no es legible: " + path.value))
    else if !EndsWith(ToLower(path.value), ".csv") then Fail(IOException("El archivo debe tener extensión .csv"))
    else Pass
  }

  /** Column `k` of the split header names the expected column. */
  predicate ColumnMatches(headers: seq<string>, k: nat)
    requires |headers| == ExpectedColumns && k < ExpectedColumns
  {
    EqualsIgnoreCase(Trim(headers[k]), ExpectedHeaders[k])
  }

  /** The header the reader accepts: seven comma-separated columns naming,
      up to surrounding white space and letter case, the expected columns in order. */
  predicate IsHeaderValid(headerLine: string) {
    var headers := JavaSplit(headerLine, Separator);
    |headers| == ExpectedColumns && forall k | 0 <= k < ExpectedColumns :: ColumnMatches(headers, k)
  }

  /** The first column from `i` on that does not match, or 7 if none. */
  function FirstMismatch(headers: seq<string>, i: nat): (r: nat)
    requires |headers| == ExpectedColumns && i <= ExpectedColumns
    ensures i <= r <= ExpectedColumns
    ensures forall k | i <= k < r :: ColumnMatches(headers, k)
    ensures r < ExpectedColumns ==> !ColumnMatches(headers, r)
    decreases ExpectedColumns - i
  {
    if i == ExpectedColumns || !ColumnMatches(headers, i) then i else FirstMismatch(headers, i + 1)
  }

  function HeaderMismatchMessage(column: nat, found: string): string
    requires column < ExpectedColumns
  {
    "Header incorrecto en columna " + IntToString(column + 1) + ". Esperado: '"
      + ExpectedHeaders[column] + "', Encontrado: '" + found + "'"
  }

  /** `validateHeader`: blank, then wrong column count, then the first
      column that does not match is reported. */
  function ValidateHeader(headerLine: string): (r: Outcome)
    ensures r.Fail? ==> r.error.IOException?
    ensures IsBlank(headerLine) ==> r == Fail(IOException("El header del CSV no puede estar vacío"))
    ensures !IsBlank(headerLine) && |JavaSplit(headerLine, Separator)| != ExpectedColumns ==>
              r == Fail(IOException("El header debe tener exactamente 7 columnas, pero tiene "
                                    + IntToString(|JavaSplit(headerLine, Separator)|)))
    ensures !IsBlank(headerLine) && |JavaSplit(headerLine, Separator)| == ExpectedColumns ==>
              (r.Pass? <==> IsHeaderValid(headerLine))
    ensures !IsBlank(headerLine) && |JavaSplit(headerLine, Separator)| == ExpectedColumns && r.Fail? ==>
              var headers := JavaSplit(headerLine, Separator);
              exists c | 0 <= c < ExpectedColumns ::
                && (forall k | 0 <= k < c :: ColumnMatches(headers, k))
                && !ColumnMatches(headers, c)
                && r.error == IOException(HeaderMismatchMessage(c, Trim(headers[c])))
  {
    if IsBlank(headerLine) then Fail(IOException("El header del CSV no puede estar vacío"))
    else
      var headers := JavaSplit(headerLine, Separator);
      if |headers| != ExpectedColumns then
        Fail(IOException("El header debe tener exactamente 7 columnas, pero tiene " + IntToString(|headers|)))
      else
        var c := FirstMismatch(headers, 0);
        if c < ExpectedColumns then Fail(IOException(HeaderMismatchMessage(c, Trim(headers[c]))))
        else Pass
  }

  /** A blank line has no comma, so it splits into a single field. */
  lemma BlankHasOneField(s: string)
    requires IsBlank(s)
    ensures JavaSplit(s, Separator) == [s]
  {
    assert AllTrimmed(s);
  }

  /** The header is accepted exactly when it is a valid header; the
      blank check never rejects a header the other checks would accept. */
  lemma {:induction false} HeaderAcceptedIff(headerLine: string)
    ensures ValidateHeader(headerLine).Pass? <==> IsHeaderValid(headerLine)
  {
    if IsBlank(headerLine) {
      BlankHasOneField(headerLine);
    }
  }

  /** `parseInteger`: the empty string and text `Integer.parseInt` rejects
      throw `NumberFormatException` with messages naming the field. */
  function ParseInteger(value: string, fieldName: string): (r: Result<Int32>)
    ensures r.Failure? ==> r.error.NumberFormatException?
    ensures value == [] ==> r == Failure(NumberFormatException("El campo '" + fieldName + "' no puede estar vacío"))
    ensures value != [] && r.Failure? ==>
              r == Failure(NumberFormatException("El campo '" + fieldName + "' debe ser un número entero válido: " + value))
    ensures r.Success? <==> IsIntegerSyntax(value) && MinInt32 <= LiteralValue(value) <= MaxInt32
    ensures r.Success? ==> r.value == LiteralValue(value)
  {
    if value == [] then Failure(NumberFormatException("El campo '" + fieldName + "' no puede estar vacío"))
    else match ParseInt(value)
      case Some(n) => Success(n)
      case None => Failure(NumberFormatException("El campo '" + fieldName + "' debe ser un número entero válido: " + value))
  }

  /** Every `int` printed in decimal parses back to itself. */
  lemma ParseIntegerOfIntToString(n: Int32, fieldName: string)
    ensures ParseInteger(IntToString(n), fieldName) == Success(n)
  {
    IntToStringParses(n);
  }

  /** The exceptions the three `catch` clauses of `parsearLineaTenista` handle. */
  predicate IsCaught(e: Exception) {
    e.NumberFormatException? || e.DateTimeParseException? || e.IllegalArgumentException?
  }

  /** The five converted values of a data line. */
  datatype Converted = Converted(altura: Int32, peso: Int32, puntos: Int32, fecha: Date, mano: Mano)

  /** The conversions of the `try` block of `parsearLineaTenista`, on the
      trimmed fields, in the order altura, peso, puntos, fecha, mano: the
      first one that throws decides the exception. */
  function ConvertFields(campos: seq<string>): (r: Result<Converted>)
    requires |campos| == ExpectedColumns
    ensures var alt := ParseInteger(Trim(campos[2]), "altura");
            alt.Failure? ==> r == Failure(alt.error)
    ensures var alt, pes := ParseInteger(Trim(campos[2]), "altura"), ParseInteger(Trim(campos[3]), "peso");
            alt.Success? && pes.Failure? ==> r == Failure(pes.error)
    ensures var alt, pes := ParseInteger(Trim(campos[2]), "altura"), ParseInteger(Trim(campos[3]), "peso");
            var pun := ParseInteger(Trim(campos[4]), "puntos");
            alt.Success? && pes.Success? && pun.Failure? ==> r == Failure(pun.error)
    ensures var alt, pes := ParseInteger(Trim(campos[2]), "altura"), ParseInteger(Trim(campos[3]), "peso");
            var pun := ParseInteger(Trim(campos[4]), "puntos");
            var fecha := ValidarYConvertirFecha(Some(Trim(campos[6])));
            alt.Success? && pes.Success? && pun.Success? && fecha.Failure? ==> r == Failure(fecha.error)
    ensures var alt, pes := ParseInteger(Trim(campos[2]), "altura"), ParseInteger(Trim(campos[3]), "peso");
            var pun := ParseInteger(Trim(campos[4]), "puntos");
            var fecha := ValidarYConvertirFecha(Some(Trim(campos[6])));
            var mano := ValidarYConvertirMano(Some(Trim(campos[5])));
            alt.Success? && pes.Success? && pun.Success? && fecha.Success? ==>
              r == (if mano.Failure? then Failure(mano.error)
                    else Success(Converted(alt.value, pes.value, pun.value, fecha.value, mano.value)))
    ensures r.Failure? ==> IsCaught(r.error)
  {
    var altura :- ParseInteger(Trim(campos[2]), "altura");
    var peso :- ParseInteger(Trim(campos[3]), "peso");
    var puntos :- ParseInteger(Trim(campos[4]), "puntos");
    var fecha :- ValidarYConvertirFecha(Some(Trim(campos[6])));
    var mano :- ValidarYConvertirMano(Some(Trim(campos[5])));
    Success(Converted(altura, peso, puntos, fecha, mano))
  }

  /** The record `parsearLineaTenista` builds: id 0, the trimmed name and
      country, the converted values, and the same clock reading for both
      timestamps. */
  function NewRecord(campos: seq<string>, c: Converted, now: DateTime): (t: Tenista)
    requires |campos| == ExpectedColumns
    ensures t.id == Some(0) && t.nombre == Some(Trim(campos[0])) && t.pais == Some(Trim(campos[1]))
    ensures t.altura == c.altura && t.peso == c.peso && t.puntos == c.puntos
    ensures t.mano == Some(c.mano) && t.fechaNacimiento == Some(c.fecha)
    ensures t.createdAt == Some(now) && t.updatedAt == Some(now)
  {
    Tenista(Some(0), Some(Trim(campos[0])), Some(Trim(campos[1])), c.altura, c.peso, c.puntos,
            Some(c.mano), Some(c.fecha), Some(now), Some(now))
  }

  /** The message of the exception thrown for a record `validar` rejects. */
  function InvalidDataMessage(errores: seq<string>): string {
    "Datos inválidos: " + Join(", ", errores)
  }

  /** The end of the `try` block: the record built from the converted
      values is kept exactly when every rule of `validar` holds, and is
      otherwise rejected with all of its messages. */
  function Build(campos: seq<string>, c: Converted, today: Date, now: DateTime): (r: Result<Tenista>)
    requires |campos| == ExpectedColumns
    ensures r.Success? <==> FieldsValid(NewRecord(campos, c, now), today)
    ensures r.Success? ==> r.value == NewRecord(campos, c, now)
    ensures r.Failure? ==>
              r.error == IllegalArgumentException(InvalidDataMessage(Validar(NewRecord(campos, c, now), today)))
  {
    var t := NewRecord(campos, c, now);
    var errores := Validar(t, today);
    ValidarEmptyIffFieldsValid(t, today);
    if errores != [] then Failure(IllegalArgumentException(InvalidDataMessage(errores)))
    else Success(t)
  }

  /** The three `catch` clauses around that block: a `NumberFormatException`
      becomes a number-conversion error, a `DateTimeParseException` a
      date-conversion error, and any other `IllegalArgumentException` a
      validation error; the original message follows the prefix. */
  function Rewrap(e: Exception): (r: Exception)
    ensures e.NumberFormatException? ==> r == IllegalArgumentException("Error al convertir número: " + e.message)
    ensures e.DateTimeParseException? ==> r == IllegalArgumentException("Error al convertir fecha: " + e.message)
    ensures e.IllegalArgumentException? ==> r == IllegalArgumentException("Error de validación: " + e.message)
    ensures e.IOException? || e.ValidationException? ==> r == e
  {
    match e
    case NumberFormatException(m) => IllegalArgumentException("Error al convertir número: " + m)
    case DateTimeParseException(m) => IllegalArgumentException("Error al convertir fecha: " + m)
    case IllegalArgumentException(m) => IllegalArgumentException("Error de validación: " + m)
    case _ => e
  }

  function FieldCountMessage(n: nat): string {
    "La línea debe tener exactamente 7 campos, pero tiene " + IntToString(n)
  }

  /** `parsearLineaTenista`. The field count is checked outside the `try`,
      so its message is not rewrapped; every failure inside it is. */
  function ParseLine(line: string, today: Date, now: DateTime): (r: Result<Tenista>)
    ensures r.Failure? ==> r.error.IllegalArgumentException?
    ensures |JavaSplit(line, Separator)| != ExpectedColumns ==>
              r == Failure(IllegalArgumentException(FieldCountMessage(|JavaSplit(line, Separator)|)))
  {
    var campos := JavaSplit(line, Separator);
    if |campos| != ExpectedColumns then Failure(IllegalArgumentException(FieldCountMessage(|campos|)))
    else match ConvertFields(campos)
      case Failure(e) => Failure(Rewrap(e))
      case Success(c) =>
        match Build(campos, c, today, now)
        case Success(t) => Success(t)
        case Failure(e) => Failure(Rewrap(e))
  }

  /** A line of seven fields whose conversion fails is rejected with the
      conversion's exception, rewrapped. */
  lemma ParseLineConversionFails(line: string, today: Date, now: DateTime)
    requires |JavaSplit(line, Separator)| == ExpectedColumns
    requires ConvertFields(JavaSplit(line, Separator)).Failure?
    ensures ParseLine(line, today, now) == Failure(Rewrap(ConvertFields(JavaSplit(line, Separator)).error))
  {
  }

  /** A line of seven fields that converts yields the record built from it
      when `validar` finds nothing, and otherwise fails with every message
      of `validar` behind the validation prefix. */
  lemma ParseLineBuilt(line: string, today: Date, now: DateTime)
    requires |JavaSplit(line, Separator)| == ExpectedColumns
    requires ConvertFields(JavaSplit(line, Separator)).Success?
    ensures var campos := JavaSplit(line, Separator);
            var t := NewRecord(campos, ConvertFields(campos).value, now);
            FieldsValid(t, today) ==> ParseLine(line, today, now) == Success(t)
    ensures var campos := JavaSplit(line, Separator);
            var t := NewRecord(campos, ConvertFields(campos).value, now);
            !FieldsValid(t, today) ==>
              ParseLine(line, today, now)
                == Failure(IllegalArgumentException("Error de validación: " + InvalidDataMessage(Validar(t, today))))
  {
    var campos := JavaSplit(line, Separator);
    var c := ConvertFields(campos).value;
    var b := Build(campos, c, today, now);
    assert ParseLine(line, today, now) == if b.Success? then b else Failure(Rewrap(b.error));
  }

  /** The data line a record would be written as in the reader's
      seven-column layout. */
  function InputFields(t: Tenista): (r: seq<string>)
    requires t.nombre.Some? && t.pais.Some? && t.mano.Some? && t.fechaNacimiento.Some?
    ensures |r| == ExpectedColumns
  {
    [t.nombre.value, t.pais.value, IntToString(t.altura), IntToString(t.peso), IntToString(t.puntos),
     ManoName(t.mano.value), FormatDate(t.fechaNacimiento.value)]
  }

  function InputLine(t: Tenista): string
    requires t.nombre.Some? && t.pais.Some? && t.mano.Some? && t.fechaNacimiento.Some?
  {
    Join([Separator], InputFields(t))
  }

  /** What a record read from a line looks like, besides being valid. */
  predicate IsIngested(t: Tenista, now: DateTime) {
    && t.id == Some(0) && t.createdAt == Some(now) && t.updatedAt == Some(now)
    && t.nombre.Some? && Trim(t.nombre.value) == t.nombre.value
    && t.pais.Some? && Trim(t.pais.value) == t.pais.value
  }

  lemma NameHasNoSeparator(s: string)
    requires MatchesNamePattern(s)
    ensures Separator !in s
  {
  }

  lemma NumericHasNoSeparator(s: string)
    requires IsNumericText(s)
    ensures Separator !in s
  {
  }

  /** None of the seven printed fields holds a comma, and the last one is
      not empty, so splitting the line gives them back. */
  lemma {:induction false} InputFieldsSplit(t: Tenista)
    requires t.nombre.Some? && t.pais.Some? && t.mano.Some? && t.fechaNacimiento.Some?
    requires MatchesNamePattern(t.nombre.value) && MatchesNamePattern(t.pais.value)
    ensures JavaSplit(InputLine(t), Separator) == InputFields(t)
  {
    InputFieldsHaveNoSeparator(t);
    FormatDateTrimmed(t.fechaNacimiento.value);
    JavaSplitOfJoin(InputFields(t), Separator);
  }

  lemma InputFieldsHaveNoSeparator(t: Tenista)
    requires t.nombre.Some? && t.pais.Some? && t.mano.Some? && t.fechaNacimiento.Some?
    requires MatchesNamePattern(t.nombre.value) && MatchesNamePattern(t.pais.value)
    ensures forall k | 0 <= k < ExpectedColumns :: Separator !in InputFields(t)[k]
  {
    NameHasNoSeparator(t.nombre.value);
    NameHasNoSeparator(t.pais.value);
    IntHasNoSeparator(t.altura);
    IntHasNoSeparator(t.peso);
    IntHasNoSeparator(t.puntos);
    FormatDateNumeric(t.fechaNacimiento.value);
    NumericHasNoSeparator(FormatDate(t.fechaNacimiento.value));
  }

  lemma IntHasNoSeparator(n: int)
    ensures Separator !in IntToString(n)
  {
    IntToStringNumeric(n);
    NumericHasNoSeparator(IntToString(n));
  }

  /** Decimal text has no white space at either end and parses back. */
  lemma ConvertIntToString(n: Int32, fieldName: string)
    ensures ParseInteger(Trim(IntToString(n)), fieldName) == Success(n)
  {
    var s := IntToString(n);
    IntToStringNumeric(n);
    assert IsNumericChar(s[0]) && IsNumericChar(s[|s| - 1]);
    ParseIntegerOfIntToString(n, fieldName);
  }

  /** A printed date of years 1..9999 converts back to itself. */
  lemma ConvertFormatDate(d: Date)
    requires 1 <= d.year <= 9999
    ensures ValidarYConvertirFecha(Some(Trim(FormatDate(d)))) == Success(d)
  {
    FormatDateTrimmed(d);
    ParseFormatDate(d);
  }

  lemma FormatDateTrimmed(d: Date)
    ensures Trim(FormatDate(d)) == FormatDate(d) && !IsBlank(FormatDate(d))
  {
    var s := FormatDate(d);
    FormatDateNumeric(d);
    assert IsNumericChar(s[0]) && IsNumericChar(s[|s| - 1]);
  }

  lemma ConvertManoName(m: Mano)
    ensures ValidarYConvertirMano(Some(Trim(ManoName(m)))) == Success(m)
  {
    ManoNameConverts(m);
  }

  /** Seven fields holding the printed forms of converted values convert
      back to exactly those values. */
  lemma ConvertPrinted(campos: seq<string>, c: Converted)
    requires |campos| == ExpectedColumns && 1 <= c.fecha.year <= 9999
    requires campos[2] == IntToString(c.altura) && campos[3] == IntToString(c.peso)
    requires campos[4] == IntToString(c.puntos)
    requires campos[5] == ManoName(c.mano) && campos[6] == FormatDate(c.fecha)
    ensures ConvertFields(campos) == Success(c)
  {
    assert ParseInteger(Trim(campos[2]), "altura") == Success(c.altura) by { ConvertIntToString(c.altura, "altura"); }
    assert ParseInteger(Trim(campos[3]), "peso") == Success(c.peso) by { ConvertIntToString(c.peso, "peso"); }
    assert ParseInteger(Trim(campos[4]), "puntos") == Success(c.puntos) by { ConvertIntToString(c.puntos, "puntos"); }
    assert ValidarYConvertirFecha(Some(Trim(campos[6]))) == Success(c.fecha) by { ConvertFormatDate(c.fecha); }
    assert ValidarYConvertirMano(Some(Trim(campos[5]))) == Success(c.mano) by { ConvertManoName(c.mano); }
  }

  /** The converted values a record's data line holds. */
  function ConvertedOf(t: Tenista): Converted
    requires t.mano.Some? && t.fechaNacimiento.Some?
  {
    Converted(t.altura, t.peso, t.puntos, t.fechaNacimiento.value, t.mano.value)
  }

  lemma InputFieldsConvert(t: Tenista)
    requires t.nombre.Some? && t.pais.Some? && t.mano.Some? && t.fechaNacimiento.Some?
    requires 1 <= t.fechaNacimiento.value.year <= 9999
    ensures ConvertFields(InputFields(t)) == Success(ConvertedOf(t))
  {
    ConvertPrinted(InputFields(t), ConvertedOf(t));
  }

  lemma InputFieldsRebuild(t: Tenista, now: DateTime)
    requires t.mano.Some? && t.fechaNacimiento.Some? && IsIngested(t, now)
    ensures NewRecord(InputFields(t), ConvertedOf(t), now) == t
  {
  }

  /** A valid record with id 0, trimmed text and both timestamps equal to
      `now`, written as a seven-field data line, is read back as itself. */
  lemma {:induction false} ParseLineOfInputLine(t: Tenista, today: Date, now: DateTime)
    requires FieldsValid(t, today) && IsIngested(t, now)
    requires 1 <= t.fechaNacimiento.value.year <= 9999
    ensures ParseLine(InputLine(t), today, now) == Success(t)
  {
    InputFieldsSplit(t);
    InputFieldsConvert(t);
    InputFieldsRebuild(t, now);
    ParseLineBuilt(InputLine(t), today, now);
  }

  /** What the line loop has gathered: the accepted records and the error
      lines it logs. */
  datatype Lectura = Lectura(tenistas: seq<Tenista>, errores: seq<string>)

  /** The clock readings `parsearLineaTenista` makes for one line: the date
      the validator compares the birth date with, and the instant stamped on
      the record. */
  datatype Reading = Reading(today: Date, now: DateTime)

  /** `parsearLineaTenista` as the loop applies it to data line `k` (0-based,
      header excluded), with the clock read anew for every line. */
  function Parser(clock: nat -> Reading): (nat, string) -> Result<Tenista> {
    (k: nat, line: string) => ParseLine(line, clock(k).today, clock(k).now)
  }

  /** The line number `leerTenistas` reports for data line `k`: the counter
      starts at 2 and every line, blank or not, advances it. */
  function LineNumber(k: nat): nat {
    k + 2
  }

  function ErrorEntry(lineNumber: nat, e: Exception): string {
    "Error en línea " + IntToString(lineNumber) + ": " + e.message
  }

  /** Number of non-blank lines. */
  function CountNonBlank(lines: seq<string>): (n: nat)
    ensures n <= |lines|
  {
    if lines == [] then 0
    else CountNonBlank(lines[..|lines| - 1]) + (if IsBlank(lines[|lines| - 1]) then 0 else 1)
  }

  /** One pass of the loop body on data line `k`: a blank line is skipped,
      an accepted line adds its record, a rejected line one error entry. */
  function Step(prev: Lectura, k: nat, line: string, parse: (nat, string) -> Result<Tenista>): Lectura {
    if IsBlank(line) then prev
    else match parse(k, line)
      case Success(t) => Lectura(prev.tenistas + [t], prev.errores)
      case Failure(e) => Lectura(prev.tenistas, prev.errores + [ErrorEntry(LineNumber(k), e)])
  }

  /** The loop of `leerTenistas` over the data lines, as a fold from the
      first line. */
  function Procesar(data: seq<string>, parse: (nat, string) -> Result<Tenista>): Lectura {
    if data == [] then Lectura([], [])
    else Step(Procesar(data[..|data| - 1], parse), |data| - 1, data[|data| - 1], parse)
  }

  /** Every non-blank line is accounted for exactly once, as a record or as
      an error. */
  lemma {:induction false} ProcesarCount(data: seq<string>, parse: (nat, string) -> Result<Tenista>)
    ensures |Procesar(data, parse).tenistas| + |Procesar(data, parse).errores| == CountNonBlank(data)
  {
    if data != [] {
      ProcesarCount(data[..|data| - 1], parse);
    }
  }

  /** Independently of the loop: the records of the non-blank lines that
      parse, in line order, for lines numbered from data line `first`. */
  function Accepted(data: seq<string>, parse: (nat, string) -> Result<Tenista>, first: nat): seq<Tenista> {
    if data == [] then [] else AcceptedAt(data[0], parse, first) + Accepted(data[1..], parse, first + 1)
  }

  /** The record data line `k` contributes, if any. */
  function AcceptedAt(line: string, parse: (nat, string) -> Result<Tenista>, k: nat): seq<Tenista> {
    if !IsBlank(line) && parse(k, line).Success? then [parse(k, line).value] else []
  }

  /** Independently of the loop: one entry per non-blank line that does
      not parse, in line order, for lines numbered from data line `first`. */
  function Rejected(data: seq<string>, parse: (nat, string) -> Result<Tenista>, first: nat): seq<string> {
    if data == [] then [] else RejectedAt(data[0], parse, first) + Rejected(data[1..], parse, first + 1)
  }

  /** The error entry data line `k` contributes, if any. */
  function RejectedAt(line: string, parse: (nat, string) -> Result<Tenista>, k: nat): seq<string> {
    if !IsBlank(line) && parse(k, line).Failure? then [ErrorEntry(LineNumber(k), parse(k, line).error)] else []
  }

  lemma {:induction false} AcceptedSnoc(data: seq<string>, line: string, parse: (nat, string) -> Result<Tenista>, first: nat)
    ensures Accepted(data + [line], parse, first) == Accepted(data, parse, first) + Accepted([line], parse, first + |data|)
  {
    if data != [] {
      assert (data + [line])[1..] == data[1..] + [line];
      AcceptedSnoc(data[1..], line, parse, first + 1);
    }
  }

  lemma {:induction false} RejectedSnoc(data: seq<string>, line: string, parse: (nat, string) -> Result<Tenista>, first: nat)
    ensures Rejected(data + [line], parse, first) == Rejected(data, parse, first) + Rejected([line], parse, first + |data|)
  {
    if data != [] {
      assert (data + [line])[1..] == data[1..] + [line];
      RejectedSnoc(data[1..], line, parse, first + 1);
    }
  }

  /** The loop keeps exactly the successful parses, in source order. */
  lemma {:induction false} ProcesarKeepsAccepted(data: seq<string>, parse: (nat, string) -> Result<Tenista>)
    ensures Procesar(data, parse).tenistas == Accepted(data, parse, 0)
  {
    if data != [] {
      var k := |data| - 1;
      assert data == data[..k] + [data[k]];
      ProcesarKeepsAccepted(data[..k], parse);
      AcceptedSnoc(data[..k], data[k], parse, 0);
    }
  }

  /** The loop logs exactly the failed parses, in source order, each with
      its line number. */
  lemma {:induction false} ProcesarLogsRejected(data: seq<string>, parse: (nat, string) -> Result<Tenista>)
    ensures Procesar(data, parse).errores == Rejected(data, parse, 0)
  {
    if data != [] {
      var k := |data| - 1;
      assert data == data[..k] + [data[k]];
      ProcesarLogsRejected(data[..k], parse);
      RejectedSnoc(data[..k], data[k], parse, 0);
    }
  }

  /** Each record in `Accepted` is the parse of one of the non-blank lines. */
  lemma {:induction false} AcceptedFrom(data: seq<string>, parse: (nat, string) -> Result<Tenista>, first: nat, t: Tenista)
    requires t in Accepted(data, parse, first)
    ensures exists j | 0 <= j < |data| :: !IsBlank(data[j]) && parse(first + j, data[j]) == Success(t)
  {
    if !(!IsBlank(data[0]) && parse(first, data[0]) == Success(t)) {
      AcceptedFrom(data[1..], parse, first + 1, t);
      var j :| 0 <= j < |data[1..]| && !IsBlank(data[1..][j]) && parse(first + 1 + j, data[1..][j]) == Success(t);
      assert data[j + 1] == data[1..][j];
    }
  }

  /** Each record the loop keeps is the parse of one of the non-blank lines. */
  lemma ProcesarAccepted(data: seq<string>, parse: (nat, string) -> Result<Tenista>, t: Tenista)
    requires t in Procesar(data, parse).tenistas
    ensures exists k | 0 <= k < |data| :: !IsBlank(data[k]) && parse(k, data[k]) == Success(t)
  {
    KeptIsAccepted(data, parse, t);
    AcceptedFrom(data, parse, 0, t);
  }

  lemma KeptIsAccepted(data: seq<string>, parse: (nat, string) -> Result<Tenista>, t: Tenista)
    requires t in Procesar(data, parse).tenistas
    ensures t in Accepted(data, parse, 0)
  {
    ProcesarKeepsAccepted(data, parse);
  }

  /** Every record the loop keeps passed every rule of `validar` against
      the date read for its own line, has id 0, and carries that line's
      instant in both timestamps. */
  lemma ProcesarValid(data: seq<string>, clock: nat -> Reading, t: Tenista)
    requires t in Procesar(data, Parser(clock)).tenistas
    ensures exists k | 0 <= k < |data| ::
              && FieldsValid(t, clock(k).today) && t.id == Some(0)
              && t.createdAt == Some(clock(k).now) && t.updatedAt == Some(clock(k).now)
  {
    ProcesarAccepted(data, Parser(clock), t);
    var k :| 0 <= k < |data| && !IsBlank(data[k]) && Parser(clock)(k, data[k]) == Success(t);
    LineRecord(data[k], clock(k), t);
  }

  /** What a successful parse guarantees about its record: it passed every
      rule of `validar` against `today`, has id 0, the trimmed name and
      country of the line, and `now` in both timestamps. */
  lemma LineRecord(line: string, reading: Reading, t: Tenista)
    requires ParseLine(line, reading.today, reading.now) == Success(t)
    ensures FieldsValid(t, reading.today) && t.id == Some(0)
    ensures t.createdAt == Some(reading.now) && t.updatedAt == Some(reading.now)
    ensures var campos := JavaSplit(line, Separator);
            |campos| == ExpectedColumns && t.nombre == Some(Trim(campos[0])) && t.pais == Some(Trim(campos[1]))
  {
  }

  /** A blank line leaves the result unchanged, and the line after it is
      still numbered from its own position. */
  lemma BlankLineSkipped(data: seq<string>, blank: string, line: string, parse: (nat, string) -> Result<Tenista>)
    requires IsBlank(blank)
    ensures Procesar(data + [blank], parse) == Procesar(data, parse)
    ensures !IsBlank(line) && parse(|data| + 1, line).Failure? ==>
              Procesar(data + [blank] + [line], parse).errores
                == Procesar(data, parse).errores + [ErrorEntry(|data| + 3, parse(|data| + 1, line).error)]
  {
    assert (data + [blank])[..|data|] == data;
    assert (data + [blank] + [line])[..|data| + 1] == data + [blank];
  }

  /** Reading more lines only appends: earlier records and errors stay put. */
  lemma {:induction false} ProcesarPrefix(data: seq<string>, i: nat, parse: (nat, string) -> Result<Tenista>)
    requires i <= |data|
    ensures Procesar(data[..i], parse).tenistas <= Procesar(data, parse).tenistas
    ensures Procesar(data[..i], parse).errores <= Procesar(data, parse).errores
    decreases |data|
  {
    if i < |data| {
      var k := |data| - 1;
      assert data[..k][..i] == data[..i];
      ProcesarPrefix(data[..k], i, parse);
    } else {
      assert data[..i] == data;
    }
  }

  /** `leerTenistas` over a file system: the path checks, the empty-file
      check and the header check happen, in that order, before any data
      line is read; then every data line is processed. */
  method LeerTenistas(path: Option<string>, fs: FileSystem, clock: nat -> Reading) returns (r: Result<Lectura>)
    ensures !PathOk(path, fs) ==> r == Failure(ValidateFilePath(path, fs).error)
    ensures PathOk(path, fs) && fs.files[path.value].lines == [] ==>
              r == Failure(IOException("El archivo CSV está vacío"))
    ensures PathOk(path, fs) && |fs.files[path.value].lines| >= 1
            && ValidateHeader(fs.files[path.value].lines[0]).Fail? ==>
              r == Failure(ValidateHeader(fs.files[path.value].lines[0]).error)
    ensures r.Success? <==> PathOk(path, fs) && |fs.files[path.value].lines| >= 1
                            && IsHeaderValid(fs.files[path.value].lines[0])
    ensures r.Success? ==> r.value == Procesar(fs.files[path.value].lines[1..], Parser(clock))
  {
    var check := ValidateFilePath(path, fs);
    if check.Fail? {
      return Failure(check.error);
    }
    var lines := fs.files[path.value].lines;
    if |lines| == 0 {
      return Failure(IOException("El archivo CSV está vacío"));
    }
    var header := ValidateHeader(lines[0]);
    HeaderAcceptedIff(lines[0]);
    if header.Fail? {
      return Failure(header.error);
    }
    var lectura := LeerLineas(lines[1..], Parser(clock));
    return Success(lectura);
  }

  /** The loop of `leerTenistas` over the data lines, for any line parser:
      the counter starts at 2 and advances on every line, blank lines are
      skipped, and a line that fails adds an error entry instead of ending
      the loop. */
  method LeerLineas(data: seq<string>, parse: (nat, string) -> Result<Tenista>) returns (r: Lectura)
    ensures r == Procesar(data, parse)
  {
    var tenistas: seq<Tenista> := [];
    var errores: seq<string> := [];
    var i := 0;
    var lineNumber := 2;
    while i < |data|
      invariant 0 <= i <= |data|
      invariant lineNumber == LineNumber(i)
      invariant Lectura(tenistas, errores) == Procesar(data[..i], parse)
    {
      assert data[..i + 1][..i] == data[..i];
      var line := data[i];
      if IsBlank(line) {
        lineNumber := lineNumber + 1;
        i := i + 1;
        continue;
      }
      var parsed := parse(i, line);
      if parsed.Success? {
        tenistas := tenistas + [parsed.value];
      } else {
        errores := errores + [ErrorEntry(lineNumber, parsed.error)];
      }
      lineNumber := lineNumber + 1;
      i := i + 1;
    }
    assert data[..i] == data;
    return Lectura(tenistas, errores);
  }

  /** `contarLineasValidas`: the non-blank lines after the first one; the
      header is skipped without being checked. */
  method ContarLineasValidas(path: Option<string>, fs: FileSystem) returns (r: Result<nat>)
    ensures !PathOk(path, fs) ==> r == Failure(ValidateFilePath(path, fs).error)
    ensures PathOk(path, fs) && fs.files[path.value].lines == [] ==> r == Success(0)
    ensures PathOk(path, fs) && |fs.files[path.value].lines| >= 1 ==>
              r == Success(CountNonBlank(fs.files[path.value].lines[1..]))
  {
    var check := ValidateFilePath(path, fs);
    if check.Fail? {
      return Failure(check.error);
    }
    var lines := fs.files[path.value].lines;
    if |lines| == 0 {
      return Success(0);
    }
    var data := lines[1..];
    var count := 0;
    var i := 0;
    while i < |data|
      invariant 0 <= i <= |data|
      invariant count == CountNonBlank(data[..i])
    {
      assert data[..i + 1][..i] == data[..i];
      if !IsBlank(data[i]) {
        count := count + 1;
      }
      i := i + 1;
    }
    assert data[..i] == data;
    return Success(count);
  }
}

=== FILE: csv_writer.dfy ===
/** `CsvWriter`: quoting of free-text fields, one record per line, and the
    document as the header line followed by the record lines. The file is
    the string `Document` returns; `newLine()` is `"\n"`. */
module CsvWriter {
  import opened Wrappers
  import opened Numbers
  import opened Dates
  import opened JavaText
  import opened Model

  /** The header line of `CsvWriter`: the ten column names, in the
      record's declaration order, separated by commas. */
  const Header: string := Join(",", ColumnNames)

  /** The header splits back into the ten column names. */
  lemma HeaderColumns()
    ensures JavaSplit(Header, ',') == ColumnNames
  {
    var c := ColumnNames;
    forall k | 0 <= k < |c| ensures ',' !in c[k] {
    }
    JavaSplitOfJoin(c, ',');
  }

  /** The header holds no line feed. */
  lemma HeaderLacksNewline()
    ensures '\n' !in Header
  {
    var c := ColumnNames;
    forall k | 0 <= k < |c| ensures '\n' !in c[k] {
    }
    JoinKeepsAbsent(",", c, '\n');
  }

  /** The characters that make `escaparCSV` quote a value: comma, double
      quote and line feed (a lone carriage return does not). */
  predicate NeedsQuotes(v: string) {
    ',' in v || '"' in v || '\n' in v
  }

  /** `escaparCSV`: null is the empty field; a value that needs quotes is
      enclosed in double quotes with each inner double quote doubled; any
      other value is written as it is. */
  function Escape(valor: Option<string>): (r: string)
    ensures valor.None? ==> r == ""
    ensures valor.Some? && !NeedsQuotes(valor.value) ==> r == valor.value
    ensures valor.Some? && NeedsQuotes(valor.value) ==> |r| >= 2 && r[0] == '"' && r[|r| - 1] == '"'
  {
    match valor
    case None => ""
    case Some(v) => if NeedsQuotes(v) then "\"" + ReplaceChar(v, '"', "\"\"") + "\"" else v
  }

  /** How a reader following section 2 of RFC 4180 recovers a field: a
      quoted field loses its enclosing quotes and each doubled quote
      inside becomes one. */
  function Unescape(s: string): string {
    if |s| >= 2 && s[0] == '"' && s[|s| - 1] == '"' then Undouble(s[1..|s| - 1]) else s
  }

  function Undouble(s: string): string
    decreases |s|
  {
    if s == [] then []
    else if |s| >= 2 && s[0] == '"' && s[1] == '"' then "\"" + Undouble(s[2..])
    else [s[0]] + Undouble(s[1..])
  }

  lemma {:induction false} UndoubleDoubled(v: string)
    ensures Undouble(ReplaceChar(v, '"', "\"\"")) == v
  {
    if v != [] {
      var rest := ReplaceChar(v[1..], '"', "\"\"");
      UndoubleDoubled(v[1..]);
      if v[0] == '"' {
        var s := "\"\"" + rest;
        assert s[2..] == rest;
      } else {
        var s := [v[0]] + rest;
        assert s[1..] == rest;
      }
      assert v == [v[0]] + v[1..];
    }
  }

  /** Reading an escaped value back gives the value. */
  lemma EscapeRoundTrip(v: string)
    ensures Unescape(Escape(Some(v))) == v
  {
    if NeedsQuotes(v) {
      var inner := ReplaceChar(v, '"', "\"\"");
      var s := "\"" + inner + "\"";
      assert s[1..|s| - 1] == inner;
      UndoubleDoubled(v);
    } else if |v| >= 2 {
      assert v[0] != '"';
    }
  }

  /** The ten fields of `formatearTenistaCSV`, in header order: only the
      name and the country are escaped. */
  function Fields(t: Tenista): (r: seq<string>)
    requires Renderable(t)
    ensures |r| == |ColumnNames|
  {
    seq(|ColumnNames|, k requires 0 <= k < |ColumnNames| => Field(t, k))
  }

  /** The field of column `k`. */
  function Field(t: Tenista, k: nat): string
    requires Renderable(t) && k < |ColumnNames|
  {
    if k == 0 then IdText(t.id)
    else if k == 1 then Escape(t.nombre)
    else if k == 2 then Escape(t.pais)
    else if k == 3 then IntToString(t.altura)
    else if k == 4 then IntToString(t.peso)
    else if k == 5 then IntToString(t.puntos)
    else if k == 6 then ManoName(t.mano.value)
    else if k == 7 then FormatDate(t.fechaNacimiento.value)
    else if k == 8 then FormatDateTime(t.createdAt.value)
    else FormatDateTime(t.updatedAt.value)
  }

  /** `formatearTenistaCSV`. */
  function Line(t: Tenista): string
    requires Renderable(t)
  {
    Join(",", Fields(t))
  }

  /** The text `v` holds no `x`. */
  predicate Lacks(v: Option<string>, x: char) {
    v.None? || x !in v.value
  }

  /** Escaping adds no comma and no line feed. */
  lemma EscapeKeepsAbsent(v: Option<string>, x: char)
    requires Lacks(v, x) && x != '"'
    ensures x !in Escape(v)
  {
    if v.Some? && NeedsQuotes(v.value) {
      ReplaceCharKeepsAbsent(v.value, '"', "\"\"", x);
    }
  }

  /** No field holds `x` when it is neither a character numbers, dates
      and hand names are printed with, nor in the name or country. */
  lemma FieldsLack(t: Tenista, x: char)
    requires Renderable(t) && !IsNumericChar(x) && x != '"'
    requires x !in IdText(None) && x !in ManoName(t.mano.value) && Lacks(t.nombre, x) && Lacks(t.pais, x)
    ensures forall k | 0 <= k < |Fields(t)| :: x !in Fields(t)[k]
  {
    var f := Fields(t);
    forall k | 0 <= k < |f| ensures x !in f[k] {
      FieldLacks(t, k, x);
    }
  }

  lemma FieldLacks(t: Tenista, k: nat, x: char)
    requires Renderable(t) && k < |ColumnNames| && !IsNumericChar(x) && x != '"'
    requires x !in IdText(None) && x !in ManoName(t.mano.value) && Lacks(t.nombre, x) && Lacks(t.pais, x)
    ensures x !in Field(t, k)
  {
    if k == 0 {
      if t.id.Some? {
        IntToStringLacks(t.id.value, x);
      }
    } else if k == 1 {
      EscapeKeepsAbsent(t.nombre, x);
    } else if k == 2 {
      EscapeKeepsAbsent(t.pais, x);
    } else if k == 3 {
      IntToStringLacks(t.altura, x);
    } else if k == 4 {
      IntToStringLacks(t.peso, x);
    } else if k == 5 {
      IntToStringLacks(t.puntos, x);
    } else if k == 7 {
      FormatDateLacks(t.fechaNacimiento.value, x);
    } else if k == 8 {
      FormatDateTimeLacks(t.createdAt.value, x);
    } else if k == 9 {
      FormatDateTimeLacks(t.updatedAt.value, x);
    }
  }

  /** When the name and the country hold no comma, a record line splits
      into exactly the ten fields, in header order. */
  lemma LineSplitsIntoFields(t: Tenista)
    requires Renderable(t) && Lacks(t.nombre, ',') && Lacks(t.pais, ',')
    ensures JavaSplit(Line(t), ',') == Fields(t)
  {
    assert ',' !in ManoName(t.mano.value) && ',' !in IdText(None);
    FieldsLack(t, ',');
    assert Fields(t)[9] != [];
    JavaSplitOfJoin(Fields(t), ',');
  }

  /** The written numbers parse back to the record's numbers. */
  lemma NumbersReadBack(t: Tenista)
    requires Renderable(t)
    ensures ParseInt(Fields(t)[3]) == Some(t.altura)
    ensures ParseInt(Fields(t)[4]) == Some(t.peso)
    ensures ParseInt(Fields(t)[5]) == Some(t.puntos)
  {
    var f := Fields(t);
    assert f[3] == IntToString(t.altura) && f[4] == IntToString(t.peso) && f[5] == IntToString(t.puntos);
    IntToStringParses(t.altura);
    IntToStringParses(t.peso);
    IntToStringParses(t.puntos);
  }

  /** The written name and country unquote to the record's texts. */
  lemma TextsReadBack(t: Tenista)
    requires Renderable(t)
    ensures t.nombre.Some? ==> Unescape(Fields(t)[1]) == t.nombre.value
    ensures t.pais.Some? ==> Unescape(Fields(t)[2]) == t.pais.value
  {
    var f := Fields(t);
    assert f[1] == Escape(t.nombre) && f[2] == Escape(t.pais);
    if t.nombre.Some? {
      EscapeRoundTrip(t.nombre.value);
    }
    if t.pais.Some? {
      EscapeRoundTrip(t.pais.value);
    }
  }

  /** The written birth date parses back when its year has four digits. */
  lemma DateReadBack(t: Tenista)
    requires Renderable(t) && 1 <= t.fechaNacimiento.value.year <= 9999
    ensures ParseDate(Fields(t)[7]) == t.fechaNacimiento
  {
    ParseFormatDate(t.fechaNacimiento.value);
  }

  /** The record lines, in list order. */
  function LineSeq(ts: seq<Tenista>): (r: seq<string>)
    requires AllRenderable(ts)
  {
    seq(|ts|, k requires 0 <= k < |ts| => Line(ts[k]))
  }

  /** Each line followed by a line feed. */
  function Terminated(lines: seq<string>): string {
    if lines == [] then "" else lines[0] + "\n" + Terminated(lines[1..])
  }

  /** `escribir`: the header line, then one line per record. */
  function Document(ts: seq<Tenista>): string
    requires AllRenderable(ts)
  {
    Header + "\n" + Terminated(LineSeq(ts))
  }

  lemma {:induction false} TerminatedJoin(lines: seq<string>)
    ensures Terminated(lines) == Join("\n", lines + [""])
  {
    if lines != [] {
      TerminatedJoin(lines[1..]);
      assert lines + [""] == [lines[0]] + (lines[1..] + [""]);
      JoinCons("\n", lines[0], lines[1..] + [""]);
    }
  }

  /** A record line holds no line feed when its name and country hold none. */
  lemma LineLacksNewline(t: Tenista)
    requires Renderable(t) && Lacks(t.nombre, '\n') && Lacks(t.pais, '\n')
    ensures '\n' !in Line(t)
  {
    assert '\n' !in ManoName(t.mano.value) && '\n' !in IdText(None);
    FieldsLack(t, '\n');
    JoinKeepsAbsent(",", Fields(t), '\n');
  }

  /** A header and lines free of line feeds, each terminated, split back
      into the header, the lines and the empty remainder. */
  lemma TerminatedSplit(header: string, lines: seq<string>)
    requires '\n' !in header
    requires forall k | 0 <= k < |lines| :: '\n' !in lines[k]
    ensures SplitAll(header + "\n" + Terminated(lines), '\n') == [header] + lines + [""]
  {
    var parts := [header] + lines + [""];
    TerminatedJoin(lines);
    assert parts == [header] + (lines + [""]);
    JoinCons("\n", header, lines + [""]);
    SplitAllJoin(parts, '\n');
  }

  /** When no name or country holds a line feed, the document's lines are
      the header, then exactly one line per record in list order, then the
      empty remainder after the final line feed. */
  lemma DocumentLines(ts: seq<Tenista>)
    requires AllRenderable(ts)
    requires forall k | 0 <= k < |ts| :: Lacks(ts[k].nombre, '\n') && Lacks(ts[k].pais, '\n')
    ensures SplitAll(Document(ts), '\n') == [Header] + LineSeq(ts) + [""]
  {
    var lines := LineSeq(ts);
    forall k | 0 <= k < |lines| ensures '\n' !in lines[k] {
      LineLacksNewline(ts[k]);
    }
    HeaderLacksNewline();
    TerminatedSplit(Header, lines);
  }
}

=== FILE: dates.dfy ===
/** `java.time.LocalDate` and `LocalDateTime` as far as the pipeline uses
    them: the proleptic Gregorian calendar, `isBefore`/`isAfter`,
    `minusYears`, parsing with the pattern `yyyy-MM-dd` and printing with
    `yyyy-MM-dd` and `yyyy-MM-dd'T'HH:mm:ss.SSSSSS`. */
module Dates {
  import opened Wrappers
  import opened Numbers

  /** A year-month-day triple, not necessarily a real date. */
  datatype Ymd = Ymd(year: int, month: int, day: int)

  predicate IsLeap(y: int) {
    y % 4 == 0 && (y % 100 != 0 || y % 400 == 0)
  }

  function DaysInMonth(y: int, m: int): (n: int)
    requires 1 <= m <= 12
    ensures 28 <= n <= 31
  {
    if m == 2 then (if IsLeap(y) then 29 else 28)
    else if m == 4 || m == 6 || m == 9 || m == 11 then 30
    else 31
  }

  predicate IsValidDate(d: Ymd) {
    1 <= d.month <= 12 && 1 <= d.day <= DaysInMonth(d.year, d.month)
  }

  /** A `LocalDate`: always a real calendar date. */
  type Date = d: Ymd | IsValidDate(d) witness Ymd(2000, 1, 1)

  /** A `LocalDateTime`, down to the nanosecond. */
  datatype Instant = Instant(date: Date, hour: int, minute: int, second: int, nano: int)

  predicate IsValidInstant(t: Instant) {
    0 <= t.hour < 24 && 0 <= t.minute < 60 && 0 <= t.second < 60 && 0 <= t.nano < 1_000_000_000
  }

  type DateTime = t: Instant | IsValidInstant(t) witness Instant(Ymd(2000, 1, 1), 0, 0, 0, 0)

  /** `a.isBefore(b)`: chronological order, which is the lexicographic order of (year, month, day). */
  predicate IsBefore(a: Date, b: Date) {
    a.year < b.year || (a.year == b.year && (a.month < b.month || (a.month == b.month && a.day < b.day)))
  }

  /** `a.isAfter(b)`. */
  predicate IsAfter(a: Date, b: Date) {
    IsBefore(b, a)
  }

  /** `d.minusYears(n)`: the same month and day `n` years earlier, with the
      day moved back to the last day of the month when that year has no such
      day (29 February in a non-leap year). */
  function MinusYears(d: Date, n: int): (r: Date)
    ensures r.year == d.year - n && r.month == d.month
    ensures r.day == d.day || (r.day == DaysInMonth(r.year, r.month) && r.day < d.day)
  {
    var y := d.year - n;
    var last := DaysInMonth(y, d.month);
    Ymd(y, d.month, if d.day <= last then d.day else last)
  }

  /** The number of birthdays someone born on `birth` has had by `today`. */
  function AgeInYears(birth: Date, today: Date): int
  {
    today.year - birth.year
      - (if today.month < birth.month || (today.month == birth.month && today.day < birth.day) then 1 else 0)
  }

  /** "Born no later than `n` years before today" means "at least `n` years
      old", counting birthdays; the day clamping of `minusYears` never makes
      a difference because it only skips a 29 February that does not exist. */
  lemma NotAfterMinusYearsIsAge(birth: Date, today: Date, n: int)
    ensures !IsAfter(birth, MinusYears(today, n)) <==> AgeInYears(birth, today) >= n
  {
    var m := MinusYears(today, n);
    if m.day != today.day && birth.year == m.year && birth.month == m.month {
      assert birth.day <= m.day;
    }
  }

  /** `+` for years after 9999, otherwise four digits of the year-of-era
      (years before 1 count back from 1 BC), as `yyyy` prints. */
  function YearText(y: int): string
  {
    var yoe: nat := if y >= 1 then y else 1 - y;
    if yoe > 9999 then "+" + NatToString(yoe) else ZeroPad(yoe, 4)
  }

  /** `date.format(ofPattern("yyyy-MM-dd"))`. */
  function FormatDate(d: Date): string
  {
    YearText(d.year) + "-" + ZeroPad(d.month, 2) + "-" + ZeroPad(d.day, 2)
  }

  /** `dateTime.format(ofPattern("yyyy-MM-dd'T'HH:mm:ss.SSSSSS"))`: the
      fraction is the nanosecond field truncated to microseconds. */
  function FormatDateTime(t: DateTime): string
  {
    FormatDate(t.date) + "T" + ZeroPad(t.hour, 2) + ":" + ZeroPad(t.minute, 2) + ":"
      + ZeroPad(t.second, 2) + "." + ZeroPad(t.nano / 1000, 6)
  }

  /** The exact shape `yyyy-MM-dd` accepts: four digits, a hyphen, two digits, a hyphen, two digits. */
  predicate IsDateShape(s: string) {
    |s| == 10 && s[4] == '-' && s[7] == '-'
    && AllDigits(s[..4]) && AllDigits(s[5..7]) && AllDigits(s[8..])
  }

  /** `LocalDate.parse(s, ofPattern("yyyy-MM-dd"))` for four-digit years;
      `None` stands for `DateTimeParseException`. The year of era must be at
      least 1, the month 1..12 and the day 1..31; a day past the end of its
      month is moved back to the month's last day. A year written with a
      `+` sign and more than four digits, which `yyyy` also reads, is
      rejected here. */
  function ParseDate(s: string): (r: Option<Date>)
    ensures r.Some? ==> IsDateShape(s) && 1 <= r.value.year <= 9999
  {
    if !IsDateShape(s) then None
    else
      var y := DigitsValue(s[..4]);
      assert y < 10000 by { DigitsValueBound(s[..4]); Pow10Values(); }
      var m := DigitsValue(s[5..7]);
      var d := DigitsValue(s[8..]);
      if y < 1 || m < 1 || m > 12 || d < 1 || d > 31 then None
      else
        var last := DaysInMonth(y, m);
        Some(Ymd(y, m, if d <= last then d else last))
  }

  /** Printing a date of years 1..9999 and parsing the text back gives the same date. */
  lemma ParseFormatDate(d: Date)
    requires 1 <= d.year <= 9999
    ensures ParseDate(FormatDate(d)) == Some(d)
  {
    Pow10Values();
    ZeroPadValue(d.year, 4);
    ZeroPadValue(d.month, 2);
    ZeroPadValue(d.day, 2);
    ZeroPadLength(d.year, 4);
    ZeroPadLength(d.month, 2);
    ZeroPadLength(d.day, 2);
    var ys, ms, ds := ZeroPad(d.year, 4), ZeroPad(d.month, 2), ZeroPad(d.day, 2);
    var s := FormatDate(d);
    assert s == ys + "-" + ms + "-" + ds;
    assert s[..4] == ys;
    assert s[5..7] == ms;
    assert s[8..] == ds;
  }

  /** The characters dates and timestamps are printed with. */
  predicate IsNumericChar(c: char) {
    IsDigit(c) || c == '-' || c == '+' || c == 'T' || c == ':' || c == '.'
  }

  predicate IsNumericText(s: string) {
    forall k | 0 <= k < |s| :: IsNumericChar(s[k])
  }

  lemma NumericConcat(a: string, b: string)
    requires IsNumericText(a) && IsNumericText(b)
    ensures IsNumericText(a + b)
  {
    forall k | 0 <= k < |a + b|
      ensures IsNumericChar((a + b)[k])
    {
      if k >= |a| {
        assert (a + b)[k] == b[k - |a|];
      }
    }
  }

  lemma IntToStringNumeric(n: int)
    ensures IsNumericText(IntToString(n))
  {
    NatToStringDigits(if n < 0 then -n else n);
    if n < 0 {
      NumericConcat("-", NatToString(-n));
    }
  }

  lemma FormatDateNumeric(d: Date)
    ensures IsNumericText(FormatDate(d))
  {
    var yoe: nat := if d.year >= 1 then d.year else 1 - d.year;
    NatToStringDigits(yoe);
    ZeroPadValue(yoe, 4);
    ZeroPadValue(d.month, 2);
    ZeroPadValue(d.day, 2);
    if yoe > 9999 {
      NumericConcat("+", NatToString(yoe));
    }
    NumericConcat(YearText(d.year), "-");
    NumericConcat(YearText(d.year) + "-", ZeroPad(d.month, 2));
    NumericConcat(YearText(d.year) + "-" + ZeroPad(d.month, 2), "-");
    NumericConcat(YearText(d.year) + "-" + ZeroPad(d.month, 2) + "-", ZeroPad(d.day, 2));
  }

  lemma FormatDateTimeNumeric(t: DateTime)
    ensures IsNumericText(FormatDateTime(t))
  {
    FormatDateNumeric(t.date);
    ZeroPadValue(t.hour, 2);
    ZeroPadValue(t.minute, 2);
    ZeroPadValue(t.second, 2);
    ZeroPadValue(t.nano / 1000, 6);
    var s0 := FormatDate(t.date);
    NumericConcat(s0, "T");
    NumericConcat(s0 + "T", ZeroPad(t.hour, 2));
    var s1 := s0 + "T" + ZeroPad(t.hour, 2);
    NumericConcat(s1, ":");
    NumericConcat(s1 + ":", ZeroPad(t.minute, 2));
    var s2 := s1 + ":" + ZeroPad(t.minute, 2);
    NumericConcat(s2, ":");
    NumericConcat(s2 + ":", ZeroPad(t.second, 2));
    var s3 := s2 + ":" + ZeroPad(t.second, 2);
    NumericConcat(s3, ".");
    NumericConcat(s3 + ".", ZeroPad(t.nano / 1000, 6));
  }

  /** Numeric text holds no character outside the numeric ones. */
  lemma NumericLacks(s: string, x: char)
    requires IsNumericText(s) && !IsNumericChar(x)
    ensures x !in s
  {
  }

  /** A printed number holds no character outside the numeric ones. */
  lemma IntToStringLacks(n: int, x: char)
    requires !IsNumericChar(x)
    ensures x !in IntToString(n)
  {
    IntToStringNumeric(n);
    NumericLacks(IntToString(n), x);
  }

  /** A printed date holds no character outside the numeric ones. */
  lemma FormatDateLacks(d: Date, x: char)
    requires !IsNumericChar(x)
    ensures x !in FormatDate(d)
  {
    FormatDateNumeric(d);
    NumericLacks(FormatDate(d), x);
  }

  /** A printed timestamp holds no character outside the numeric ones. */
  lemma FormatDateTimeLacks(t: DateTime, x: char)
    requires !IsNumericChar(x)
    ensures x !in FormatDateTime(t)
  {
    FormatDateTimeNumeric(t);
    NumericLacks(FormatDateTime(t), x);
  }
}

=== FILE: dispatch.dfy ===
/** The pure decisions of `Main`: how the command line selects the input
    and output files, how the output file's extension selects the writer,
    and what the record cache holds after the load loop. */
module Dispatch {
  import opened Wrappers
  import opened Numbers
  import opened JavaText
  import opened Model
  import opened Cache
  import CsvWriter
  import JsonWriter
  import XmlWriter

  /** The output file used when only the input file is given. */
  const DefaultOutput: string := "torneo_tenis.json"

  /** The size of the cache `main` fills. */
  const MainCacheSize: Int32 := 5

  /** What `main` does with its arguments: show the help text, or run the
      pipeline from `input` to `output`. */
  datatype Action = Help | Run(input: string, output: string)

  /** The argument check of `main`: none or more than two arguments show the
      help; otherwise the first is the input, and the second, when present,
      the output. */
  function Arguments(args: seq<string>): Action {
    if |args| == 0 || |args| > 2 then Help
    else Run(args[0], if |args| == 2 then args[1] else DefaultOutput)
  }

  /** `obtenerExtension`: the text after the last dot, or `json` when there
      is no dot or the only one starts the name. */
  function Extension(archivo: string): (r: string)
    ensures '.' !in r
  {
    var lastDot := LastIndexOf(archivo, '.');
    if lastDot > 0 then archivo[lastDot + 1..] else "json"
  }

  datatype Format = Csv | Json | Xml

  /** The writer switch of `generarArchivoSalida`: the extension, lower-cased,
      names the format, and any other extension falls back to JSON. */
  function FormatOf(archivo: string): Format {
    var extension := ToLower(Extension(archivo));
    if extension == "csv" then Csv
    else if extension == "xml" then Xml
    else Json
  }

  /** The text `generarArchivoSalida` writes for the records. */
  function Output(ts: seq<Tenista>, archivo: string): string
    requires AllRenderable(ts)
  {
    match FormatOf(archivo)
    case Csv => CsvWriter.Document(ts)
    case Json => JsonWriter.Document(ts)
    case Xml => XmlWriter.Document(ts)
  }

  /** The cache after `main` has put every saved record under its id. */
  function MainCache(saved: seq<Tenista>): Fifo {
    var empty := New(MainCacheSize);
    PutAll(empty.value, saved)
  }

  /** The help is shown exactly when there are no arguments or more than two. */
  lemma ArgumentsHelp(args: seq<string>)
    ensures Arguments(args).Help? <==> (|args| == 0 || |args| > 2)
  {
  }

  /** With only the input file, the output goes to `torneo_tenis.json`,
      which the JSON writer produces. */
  lemma DefaultOutputIsJson(input: string)
    ensures Arguments([input]) == Run(input, DefaultOutput)
    ensures FormatOf(DefaultOutput) == Json
  {
    var e := Extension(DefaultOutput);
    assert LastIndexOf(DefaultOutput, '.') == 12 by {
      assert DefaultOutput[12] == '.';
    }
    assert e == "json";
    assert ToLower(e) == "json";
  }

  /** The extension of a name with a non-empty stem is exactly the text
      after its last dot. */
  lemma ExtensionOf(stem: string, ext: string)
    requires stem != [] && '.' !in ext
    ensures Extension(stem + "." + ext) == ext
  {
    var s := stem + "." + ext;
    assert s[|stem|] == '.';
    forall k | |stem| < k < |s| ensures s[k] != '.' {
      assert s[k] == ext[k - |stem| - 1];
    }
    assert s[|stem| + 1..] == ext;
  }

  /** A name without a dot, or whose only dot is its first character, is
      written as JSON. */
  lemma NoExtensionIsJson(archivo: string)
    requires forall k | 0 < k < |archivo| :: archivo[k] != '.'
    ensures Extension(archivo) == "json" && FormatOf(archivo) == Json
  {
    assert ToLower("json") == "json";
  }

  /** The extension's case does not matter: an extension of `CSV`, `Csv` or
      `csv` all select the CSV writer. */
  lemma FormatIgnoresCase(stem: string, ext: string)
    requires stem != [] && '.' !in ext
    ensures FormatOf(stem + "." + ext) == FormatOf(stem + "." + ToLower(ext))
  {
    ExtensionOf(stem, ext);
    var lower := ToLower(ext);
    forall k | 0 <= k < |lower| ensures lower[k] != '.' {
      assert ext[k] != '.';
    }
    ExtensionOf(stem, lower);
    assert ToLower(lower) == lower;
  }

  /** The output is the CSV, XML or JSON document according to the
      lower-cased extension, JSON for any other. */
  lemma OutputByExtension(ts: seq<Tenista>, stem: string, ext: string)
    requires AllRenderable(ts) && stem != [] && '.' !in ext
    ensures ToLower(ext) == "csv" ==> Output(ts, stem + "." + ext) == CsvWriter.Document(ts)
    ensures ToLower(ext) == "xml" ==> Output(ts, stem + "." + ext) == XmlWriter.Document(ts)
    ensures ToLower(ext) != "csv" && ToLower(ext) != "xml" ==>
      Output(ts, stem + "." + ext) == JsonWriter.Document(ts)
  {
    ExtensionOf(stem, ext);
  }

  /** When the saved records have distinct ids, the cache of `main` ends
      holding the ids of the last five records, oldest first. */
  lemma MainCacheNewest(saved: seq<Tenista>)
    requires forall k | 0 <= k < |saved| :: saved[k].id.Some?
    requires Distinct(Ids(saved))
    ensures MainCache(saved).keys == Newest(Ids(saved), MainCacheSize as nat)
  {
    var empty := New(MainCacheSize).value;
    assert empty.keys == [];
    PutAllKeepsNewest(empty, saved);
    assert empty.keys + Ids(saved) == Ids(saved);
  }
}

=== FILE: json_writer.dfy ===
/** `JsonWriter`: backslash escaping of free text, one object per record
    with one member per column, and the document as an object whose
    `tenistas` member is the array of records. The file is the string
    `Document` returns. */
module JsonWriter {
  import opened Wrappers
  import opened Numbers
  import opened Dates
  import opened JavaText
  import opened Model

  /** The five characters `escaparJSON` rewrites. */
  predicate IsSpecial(c: char) {
    c == '\\' || c == '"' || c == '\n' || c == '\r' || c == '\t'
  }

  predicate HasSpecial(v: string) {
    exists k | 0 <= k < |v| :: IsSpecial(v[k])
  }

  /** The replacement chain of `escaparJSON`, in source order: the
      backslash first, so the backslashes written by the later steps are
      not doubled. */
  function Replaced(v: string): string {
    ReplaceChar(ReplaceChar(ReplaceChar(ReplaceChar(ReplaceChar(
      v, '\\', "\\\\"), '"', "\\\""), '\n', "\\n"), '\r', "\\r"), '\t', "\\t")
  }

  /** `escaparJSON`: null is the empty text; a value without any of the five
      characters is written as it is. */
  function Escape(valor: Option<string>): (r: string)
    ensures valor.None? ==> r == ""
    ensures valor.Some? && !HasSpecial(valor.value) ==> r == valor.value
  {
    match valor
    case None => ""
    case Some(v) => Replaced(v)
  }

  /** The escape sequence each special character becomes; any other
      character stays. */
  function EncodeChar(c: char): string {
    if c == '\\' then "\\\\"
    else if c == '"' then "\\\""
    else if c == '\n' then "\\n"
    else if c == '\r' then "\\r"
    else if c == '\t' then "\\t"
    else [c]
  }

  /** Character-by-character escaping, the reference for `Replaced`. */
  function Encode(v: string): string {
    if v == [] then [] else EncodeChar(v[0]) + Encode(v[1..])
  }

  lemma ReplacedAppend(a: string, b: string)
    ensures Replaced(a + b) == Replaced(a) + Replaced(b)
  {
    var a1, b1 := ReplaceChar(a, '\\', "\\\\"), ReplaceChar(b, '\\', "\\\\");
    ReplaceCharAppend(a, b, '\\', "\\\\");
    var a2, b2 := ReplaceChar(a1, '"', "\\\""), ReplaceChar(b1, '"', "\\\"");
    ReplaceCharAppend(a1, b1, '"', "\\\"");
    var a3, b3 := ReplaceChar(a2, '\n', "\\n"), ReplaceChar(b2, '\n', "\\n");
    ReplaceCharAppend(a2, b2, '\n', "\\n");
    var a4, b4 := ReplaceChar(a3, '\r', "\\r"), ReplaceChar(b3, '\r', "\\r");
    ReplaceCharAppend(a3, b3, '\r', "\\r");
    ReplaceCharAppend(a4, b4, '\t', "\\t");
  }

  /** `ReplaceChar` on a one-character text. */
  lemma ReplaceOne(c: char, d: char, rep: string)
    ensures ReplaceChar([c], d, rep) == if c == d then rep else [c]
  {
    assert [c][1..] == [];
  }

  /** A character other than the five passes through the chain unchanged. */
  lemma ReplacedPlain(c: char)
    requires !IsSpecial(c)
    ensures Replaced([c]) == [c]
  {
  }

  lemma ReplacedBackslash()
    ensures Replaced("\\") == "\\\\"
  {
    ReplaceOne('\\', '\\', "\\\\");
    assert '"' !in "\\\\";
    assert '\n' !in "\\\\";
    assert '\r' !in "\\\\";
    assert '\t' !in "\\\\";
  }

  lemma ReplacedQuote()
    ensures Replaced("\"") == "\\\""
  {
    assert ReplaceChar("\"", '\\', "\\\\") == "\"";
    ReplaceOne('"', '"', "\\\"");
    assert '\n' !in "\\\"";
    assert '\r' !in "\\\"";
    assert '\t' !in "\\\"";
  }

  lemma ReplacedNewline()
    ensures Replaced("\n") == "\\n"
  {
    assert ReplaceChar("\n", '\\', "\\\\") == "\n";
    assert ReplaceChar("\n", '"', "\\\"") == "\n";
    ReplaceOne('\n', '\n', "\\n");
    assert '\r' !in "\\n";
    assert '\t' !in "\\n";
  }

  lemma ReplacedReturn()
    ensures Replaced("\r") == "\\r"
  {
    assert ReplaceChar("\r", '\\', "\\\\") == "\r";
    assert ReplaceChar("\r", '"', "\\\"") == "\r";
    assert ReplaceChar("\r", '\n', "\\n") == "\r";
    ReplaceOne('\r', '\r', "\\r");
    assert '\t' !in "\\r";
  }

  lemma ReplacedTab()
    ensures Replaced("\t") == "\\t"
  {
    assert ReplaceChar("\t", '\\', "\\\\") == "\t";
    assert ReplaceChar("\t", '"', "\\\"") == "\t";
    assert ReplaceChar("\t", '\n', "\\n") == "\t";
    assert ReplaceChar("\t", '\r', "\\r") == "\t";
    ReplaceOne('\t', '\t', "\\t");
  }

  lemma ReplacedChar(c: char)
    ensures Replaced([c]) == EncodeChar(c)
  {
    if c == '\\' {
      ReplacedBackslash();
    } else if c == '"' {
      ReplacedQuote();
    } else if c == '\n' {
      ReplacedNewline();
    } else if c == '\r' {
      ReplacedReturn();
    } else if c == '\t' {
      ReplacedTab();
    } else {
      ReplacedPlain(c);
    }
  }

  /** The replacement chain is the per-character escaping: doubling the
      backslashes first means no escape sequence is escaped twice. */
  lemma {:induction false} ReplacedIsEncode(v: string)
    ensures Replaced(v) == Encode(v)
  {
    if v != [] {
      assert v == [v[0]] + v[1..];
      ReplacedAppend([v[0]], v[1..]);
      ReplacedChar(v[0]);
      ReplacedIsEncode(v[1..]);
    }
  }

  /** How a JSON parser reads the body of a string back: each two-character
      escape sequence becomes its character. */
  function Decode(s: string): string
    decreases |s|
  {
    if s == [] then []
    else if |s| >= 2 && s[0] == '\\' then
      (if s[1] == 'n' then "\n" else if s[1] == 'r' then "\r" else if s[1] == 't' then "\t" else [s[1]])
      + Decode(s[2..])
    else [s[0]] + Decode(s[1..])
  }

  lemma DecodeEncodeChar(c: char, rest: string)
    ensures Decode(EncodeChar(c) + rest) == [c] + Decode(rest)
  {
    var s := EncodeChar(c) + rest;
    if IsSpecial(c) {
      assert s[0] == '\\' && s[2..] == rest;
    } else {
      assert s[0] == c && s[1..] == rest;
    }
  }

  lemma {:induction false} DecodeEncode(v: string)
    ensures Decode(Encode(v)) == v
  {
    if v != [] {
      DecodeEncodeChar(v[0], Encode(v[1..]));
      DecodeEncode(v[1..]);
      assert v == [v[0]] + v[1..];
    }
  }

  /** Reading an escaped value back gives the value. */
  lemma EscapeRoundTrip(v: string)
    ensures Decode(Escape(Some(v))) == v
  {
    ReplacedIsEncode(v);
    DecodeEncode(v);
  }

  /** A control character, U+0000 to U+001F. */
  predicate IsControl(c: char) {
    c < ' '
  }

  /** The characters allowed after a backslash in a JSON string, apart from
      the `u` of a hexadecimal escape. */
  predicate IsEscapable(c: char) {
    c == '"' || c == '\\' || c == '/' || c == 'b' || c == 'f' || c == 'n' || c == 'r' || c == 't'
  }

  /** The body of a JSON string as section 7 of RFC 8259 defines it: no
      unescaped double quote, backslash or control character. */
  predicate IsStringBody(s: string)
    decreases |s|
  {
    if s == [] then true
    else if s[0] == '\\' then |s| >= 2 && IsEscapable(s[1]) && IsStringBody(s[2..])
    else s[0] != '"' && !IsControl(s[0]) && IsStringBody(s[1..])
  }

  /** A control character that `escaparJSON` leaves as it is. */
  predicate IsUnescapedControl(c: char) {
    IsControl(c) && c != '\n' && c != '\r' && c != '\t'
  }

  lemma StringBodyChar(c: char, rest: string)
    requires !IsUnescapedControl(c) && IsStringBody(rest)
    ensures IsStringBody(EncodeChar(c) + rest)
  {
    var s := EncodeChar(c) + rest;
    if IsSpecial(c) {
      assert s[0] == '\\' && s[2..] == rest;
    } else {
      assert s[0] == c && s[1..] == rest;
    }
  }

  lemma {:induction false} EncodeIsStringBody(v: string)
    requires forall k | 0 <= k < |v| :: !IsUnescapedControl(v[k])
    ensures IsStringBody(Encode(v))
  {
    if v != [] {
      EncodeIsStringBody(v[1..]);
      StringBodyChar(v[0], Encode(v[1..]));
    }
  }

  /** An escaped value is a well-formed JSON string body whenever it holds
      no control character other than line feed, carriage return and tab. */
  lemma EscapeIsStringBody(v: string)
    requires forall k | 0 <= k < |v| :: !IsUnescapedControl(v[k])
    ensures IsStringBody(Escape(Some(v)))
  {
    ReplacedIsEncode(v);
    EncodeIsStringBody(v);
  }

  /** No line break and no tab survives escaping, whatever the value. */
  lemma EscapeOneLine(v: Option<string>, x: char)
    requires x == '\n' || x == '\r' || x == '\t'
    ensures x !in Escape(v)
  {
    if v.Some? {
      var s1 := ReplaceChar(v.value, '\\', "\\\\");
      var s2 := ReplaceChar(s1, '"', "\\\"");
      var s3 := ReplaceChar(s2, '\n', "\\n");
      var s4 := ReplaceChar(s3, '\r', "\\r");
      if x == '\n' {
        ReplaceCharKeepsAbsent(s3, '\r', "\\r", x);
        ReplaceCharKeepsAbsent(s4, '\t', "\\t", x);
      } else if x == '\r' {
        ReplaceCharKeepsAbsent(s4, '\t', "\\t", x);
      }
    }
  }

  /** A JSON string: the text between double quotes. */
  function Quote(s: string): string {
    "\"" + s + "\""
  }

  /** The text between the enclosing double quotes of a JSON string. */
  function Unquote(s: string): string {
    if |s| >= 2 then s[1..|s| - 1] else s
  }

  lemma UnquoteQuote(s: string)
    ensures Unquote(Quote(s)) == s
  {
    assert Quote(s)[1..|Quote(s)| - 1] == s;
  }

  /** The ten member values of `formatearTenistaJSON`, in column order: the
      name, the country, the hand and the three dates are strings, and only
      the name and the country are escaped. */
  function Values(t: Tenista): (r: seq<string>)
    requires Renderable(t)
    ensures |r| == |ColumnNames|
  {
    seq(|ColumnNames|, k requires 0 <= k < |ColumnNames| => Value(t, k))
  }

  /** The value of column `k`. */
  function Value(t: Tenista, k: nat): string
    requires Renderable(t) && k < |ColumnNames|
  {
    if k == 0 then IdText(t.id)
    else if k == 1 then Quote(Escape(t.nombre))
    else if k == 2 then Quote(Escape(t.pais))
    else if k == 3 then IntToString(t.altura)
    else if k == 4 then IntToString(t.peso)
    else if k == 5 then IntToString(t.puntos)
    else if k == 6 then Quote(ManoName(t.mano.value))
    else if k == 7 then Quote(FormatDate(t.fechaNacimiento.value))
    else if k == 8 then Quote(FormatDateTime(t.createdAt.value))
    else Quote(FormatDateTime(t.updatedAt.value))
  }

  /** One member line without its line end: indented six spaces, the quoted
      key, a colon and the value. */
  function Member(key: string, value: string): string {
    "      " + Quote(key) + ": " + value
  }

  /** The members of one record, named after the columns. */
  function Members(t: Tenista): (r: seq<string>)
    requires Renderable(t)
    ensures |r| == |ColumnNames|
  {
    var v := Values(t);
    seq(|ColumnNames|, k requires 0 <= k < |ColumnNames| => Member(ColumnNames[k], v[k]))
  }

  /** A record's object up to its closing brace: a comma and a line end
      after every member but the last, which ends the line alone. */
  function Body(t: Tenista): string
    requires Renderable(t)
  {
    "    {\n" + Join(",\n", Members(t)) + "\n" + "    }"
  }

  /** What follows an object: a comma unless it is the last, then a line end. */
  function Trailer(last: bool): string {
    if last then "\n" else ",\n"
  }

  /** `formatearTenistaJSON(tenista, esUltimo)`. */
  function Object(t: Tenista, last: bool): string
    requires Renderable(t)
  {
    Body(t) + Trailer(last)
  }

  /** The loop of `escribir`: each item rendered, then a trailer that is
      the last one's only for the final item. */
  function Items<T>(xs: seq<T>, body: T --> string): string
    requires forall k | 0 <= k < |xs| :: body.requires(xs[k])
  {
    if xs == [] then "" else body(xs[0]) + Trailer(|xs| == 1) + Items(xs[1..], body)
  }

  /** The array elements of the document, one object per record. */
  function Objects(ts: seq<Tenista>): string
    requires AllRenderable(ts)
  {
    Items(ts, Body)
  }

  const Opening: string := "{\n  \"tenistas\": [\n"
  const Closing: string := "  ]\n}\n"

  /** `escribir`: the opening of the root object and of its array, the
      records, then the two closings. */
  function Document(ts: seq<Tenista>): string
    requires AllRenderable(ts)
  {
    Opening + Objects(ts) + Closing
  }

  /** The loop writes `Object(ts[0], esUltimo)` first, with `esUltimo` true
      exactly when it is the only record, then the rest of the list. */
  lemma ObjectsFirst(ts: seq<Tenista>)
    requires AllRenderable(ts) && ts != []
    ensures Objects(ts) == Object(ts[0], |ts| == 1) + Objects(ts[1..])
  {
  }

  /** The items are the rendered bodies separated by a comma and a line
      end, with a single line end after the last: no trailing comma. */
  lemma {:induction false} ItemsJoin<T>(xs: seq<T>, body: T --> string)
    requires forall k | 0 <= k < |xs| :: body.requires(xs[k])
    requires xs != []
    ensures Items(xs, body) == Join(",\n", Mapped(xs, body)) + "\n"
  {
    var parts := Mapped(xs, body);
    if |xs| == 1 {
      assert Items(xs[1..], body) == "";
    } else {
      ItemsJoin(xs[1..], body);
      var rest := Mapped(xs[1..], body);
      assert parts[1..] == rest;
      assert parts == [parts[0]] + rest;
      JoinCons(",\n", parts[0], rest);
    }
  }

  /** The array holds the records' objects separated by commas, with no
      comma after the last. */
  lemma ObjectsJoin(ts: seq<Tenista>)
    requires AllRenderable(ts) && ts != []
    ensures Objects(ts) == Join(",\n", Mapped(ts, Body)) + "\n"
  {
    ItemsJoin(ts, Body);
  }

  /** An empty list is written as an empty array. */
  lemma EmptyDocument()
    ensures Document([]) == "{\n  \"tenistas\": [\n  ]\n}\n"
  {
  }

  /** The written numbers parse back to the record's numbers. */
  lemma NumbersReadBack(t: Tenista)
    requires Renderable(t)
    ensures ParseInt(Values(t)[3]) == Some(t.altura)
    ensures ParseInt(Values(t)[4]) == Some(t.peso)
    ensures ParseInt(Values(t)[5]) == Some(t.puntos)
  {
    var f := Values(t);
    assert f[3] == IntToString(t.altura) && f[4] == IntToString(t.peso) && f[5] == IntToString(t.puntos);
    IntToStringParses(t.altura);
    IntToStringParses(t.peso);
    IntToStringParses(t.puntos);
  }

  /** The written name and country, unquoted and decoded, are the
      record's texts. */
  lemma TextsReadBack(t: Tenista)
    requires Renderable(t)
    ensures t.nombre.Some? ==> Decode(Unquote(Values(t)[1])) == t.nombre.value
    ensures t.pais.Some? ==> Decode(Unquote(Values(t)[2])) == t.pais.value
  {
    var f := Values(t);
    var n, p := Escape(t.nombre), Escape(t.pais);
    assert f[1] == Quote(n) && f[2] == Quote(p);
    UnquoteQuote(n);
    UnquoteQuote(p);
    if t.nombre.Some? {
      EscapeRoundTrip(t.nombre.value);
    }
    if t.pais.Some? {
      EscapeRoundTrip(t.pais.value);
    }
  }
}

=== FILE: numbers.dfy ===
/** Java's fixed-width integers and their decimal text: `String.valueOf(int)`,
    `StringBuilder.append(long)`, `Integer.parseInt` and the zero-padded
    numeric fields of `DateTimeFormatter`. */
module Numbers {
  import opened Wrappers

  const MinInt32: int := -0x8000_0000
  const MaxInt32: int := 0x7fff_ffff

  /** Java `int`. */
  type Int32 = x: int | -0x8000_0000 <= x <= 0x7fff_ffff

  /** Java `long`. */
  type Int64 = x: int | -0x8000_0000_0000_0000 <= x <= 0x7fff_ffff_ffff_ffff

  predicate IsDigit(c: char) {
    '0' <= c <= '9'
  }

  predicate AllDigits(s: string) {
    forall k | 0 <= k < |s| :: IsDigit(s[k])
  }

  function DigitChar(d: nat): (c: char)
    requires d < 10
    ensures IsDigit(c)
  {
    ('0' as int + d) as char
  }

  function DigitValue(c: char): (d: nat)
    requires IsDigit(c)
    ensures d < 10 && DigitChar(d) == c
  {
    c as int - '0' as int
  }

  /** Decimal text of a non-negative value, without leading zeros. */
  function NatToString(n: nat): (r: string)
    ensures |r| >= 1
  {
    if n < 10 then [DigitChar(n)] else NatToString(n / 10) + [DigitChar(n % 10)]
  }

  /** The text is digits only, with no leading zero. */
  lemma {:induction false} NatToStringDigits(n: nat)
    ensures AllDigits(NatToString(n))
    ensures |NatToString(n)| > 1 ==> NatToString(n)[0] != '0'
  {
    if n >= 10 {
      NatToStringDigits(n / 10);
      var s := NatToString(n);
      assert s == NatToString(n / 10) + [DigitChar(n % 10)];
      assert s[0] == NatToString(n / 10)[0];
    }
  }

  /** `String.valueOf(n)`: a minus sign for negative values, then the digits of |n|. */
  function IntToString(n: int): string
  {
    if n < 0 then "-" + NatToString(-n) else NatToString(n)
  }

  /** The value of a digit string, most significant digit first. */
  function DigitsValue(s: string): nat
    requires AllDigits(s)
  {
    if s == [] then 0 else DigitsValue(s[..|s| - 1]) * 10 + DigitValue(s[|s| - 1])
  }

  /** Reading back the digits of `n` gives `n`. */
  lemma {:induction false} NatToStringValue(n: nat)
    ensures AllDigits(NatToString(n)) && DigitsValue(NatToString(n)) == n
  {
    NatToStringDigits(n);
    if n >= 10 {
      var s := NatToString(n);
      assert s[..|s| - 1] == NatToString(n / 10);
      NatToStringValue(n / 10);
    }
  }

  /** A run of zeros. */
  function Zeros(k: nat): (r: string)
    ensures |r| == k
  {
    seq(k, i => '0')
  }

  lemma {:induction false} ZerosValue(k: nat)
    ensures DigitsValue(Zeros(k)) == 0
  {
    if k > 0 {
      assert Zeros(k)[..k - 1] == Zeros(k - 1);
      ZerosValue(k - 1);
    }
  }

  /** Leading zeros do not change the value of a digit string. */
  lemma {:induction false} LeadingZerosValue(k: nat, s: string)
    requires AllDigits(s)
    ensures AllDigits(Zeros(k) + s)
    ensures DigitsValue(Zeros(k) + s) == DigitsValue(s)
    decreases |s|
  {
    var z := Zeros(k) + s;
    assert AllDigits(z) by {
      forall i | 0 <= i < |z| ensures IsDigit(z[i]) {
        if i >= k { assert z[i] == s[i - k]; }
      }
    }
    if s == [] {
      assert z == Zeros(k);
      ZerosValue(k);
    } else {
      assert z[..|z| - 1] == Zeros(k) + s[..|s| - 1];
      LeadingZerosValue(k, s[..|s| - 1]);
    }
  }

  /** The numeric printers of `DateTimeFormatter` for a field of `width`
      letters: the digits of `n`, left-padded with zeros to `width`. */
  function ZeroPad(n: nat, width: nat): (r: string)
    ensures |r| >= width
  {
    var d := NatToString(n);
    var k := if |d| >= width then 0 else width - |d|;
    Zeros(k) + d
  }

  /** A padded number is digits only, and reads back as the number. */
  lemma ZeroPadValue(n: nat, width: nat)
    ensures AllDigits(ZeroPad(n, width)) && DigitsValue(ZeroPad(n, width)) == n
  {
    var d := NatToString(n);
    var k := if |d| >= width then 0 else width - |d|;
    NatToStringValue(n);
    LeadingZerosValue(k, d);
  }

  lemma {:induction false} NatToStringLength(n: nat, width: nat)
    requires width >= 1 && n < Pow10(width)
    ensures |NatToString(n)| <= width
  {
    if n >= 10 {
      NatToStringLength(n / 10, width - 1);
    }
  }

  function Pow10(k: nat): (p: nat)
    ensures p >= 1
  {
    if k == 0 then 1 else 10 * Pow10(k - 1)
  }

  lemma {:induction false} DigitsValueBound(s: string)
    requires AllDigits(s)
    ensures DigitsValue(s) < Pow10(|s|)
  {
    if s != [] {
      DigitsValueBound(s[..|s| - 1]);
    }
  }

  lemma {:induction false} Pow10Values()
    ensures Pow10(2) == 100 && Pow10(4) == 10000 && Pow10(6) == 1000000
  {
    assert Pow10(1) == 10;
    assert Pow10(3) == 1000;
    assert Pow10(5) == 100000;
  }

  /** A value below 10^width pads to exactly `width` digits. */
  lemma ZeroPadLength(n: nat, width: nat)
    requires width >= 1 && n < Pow10(width)
    ensures |ZeroPad(n, width)| == width
  {
    NatToStringLength(n, width);
  }

  /** The text `Integer.parseInt` accepts, restricted to ASCII digits: an
      optional `+` or `-` followed by at least one digit `0`..`9`. */
  predicate IsIntegerSyntax(s: string) {
    if |s| >= 1 && (s[0] == '+' || s[0] == '-') then |s| >= 2 && AllDigits(s[1..])
    else |s| >= 1 && AllDigits(s)
  }

  /** The mathematical value of well-formed integer text. */
  function LiteralValue(s: string): int
    requires IsIntegerSyntax(s)
  {
    if s[0] == '-' then -(DigitsValue(s[1..]) as int)
    else if s[0] == '+' then DigitsValue(s[1..])
    else DigitsValue(s)
  }

  /** `Integer.parseInt(s)`: `None` stands for `NumberFormatException`. */
  function ParseInt(s: string): (r: Option<Int32>)
    ensures s == [] ==> r.None?
  {
    if IsIntegerSyntax(s) && MinInt32 <= LiteralValue(s) <= MaxInt32 then Some(LiteralValue(s) as Int32)
    else None
  }

  /** `Integer.parseInt(String.valueOf(n)) == n` for every `int`. */
  lemma IntToStringParses(n: Int32)
    ensures ParseInt(IntToString(n)) == Some(n)
  {
    var m: nat := if n < 0 then -(n as int) else n as int;
    var s := IntToString(n);
    NatToStringValue(m);
    if n < 0 {
      assert s == "-" + NatToString(m);
      assert s[1..] == NatToString(m);
      assert IsIntegerSyntax(s);
      assert LiteralValue(s) == n;
    } else {
      assert s == NatToString(m);
      assert IsDigit(s[0]);
      assert IsIntegerSyntax(s);
      assert LiteralValue(s) == n;
    }
  }
}

=== FILE: tenista.dfy ===
/** The player record `Tenista1` and the `Mano` enum. Java's mutable record
    with setters becomes an immutable datatype with update functions; Java's
    identity-based `equals`/`hashCode` become `Equals` and `HashCode`. */
module Model {
  import opened Wrappers
  import opened Numbers
  import opened Dates

  /** The dominant hand. */
  datatype Mano = Derecha | Izquierda

  /** `Mano.name()`. */
  function ManoName(m: Mano): string
  {
    match m
    case Derecha => "DERECHA"
    case Izquierda => "IZQUIERDA"
  }

  /** A `Tenista1`. Reference-typed Java fields may be null, hence `Option`;
      `id` is a nullable `Long`, the three measures are `int`. */
  datatype Tenista = Tenista(
    id: Option<Int64>,
    nombre: Option<string>,
    pais: Option<string>,
    altura: Int32,
    peso: Int32,
    puntos: Int32,
    mano: Option<Mano>,
    fechaNacimiento: Option<Date>,
    createdAt: Option<DateTime>,
    updatedAt: Option<DateTime>)

  /** The record built by the no-argument constructor. */
  const Blank: Tenista := Tenista(None, None, None, 0, 0, 0, None, None, None, None)

  /** The ten fields, in declaration order. */
  datatype Field = FId | FNombre | FPais | FAltura | FPeso | FPuntos | FMano | FFechaNacimiento | FCreatedAt | FUpdatedAt

  /** `a` and `b` agree on every field except possibly `f`. */
  predicate AgreeExcept(a: Tenista, b: Tenista, f: Field) {
    && (f == FId || a.id == b.id)
    && (f == FNombre || a.nombre == b.nombre)
    && (f == FPais || a.pais == b.pais)
    && (f == FAltura || a.altura == b.altura)
    && (f == FPeso || a.peso == b.peso)
    && (f == FPuntos || a.puntos == b.puntos)
    && (f == FMano || a.mano == b.mano)
    && (f == FFechaNacimiento || a.fechaNacimiento == b.fechaNacimiento)
    && (f == FCreatedAt || a.createdAt == b.createdAt)
    && (f == FUpdatedAt || a.updatedAt == b.updatedAt)
  }

  /** `Tenista1.equals`: records are the same entity exactly when their ids
      are equal (`Objects.equals`, so two null ids are equal too). */
  predicate Equals(a: Tenista, b: Tenista) {
    a.id == b.id
  }

  /** `equals` is an equivalence relation that ignores every field but `id`. */
  lemma EqualsIgnoresOtherFields(a: Tenista, b: Tenista, c: Tenista)
    ensures Equals(a, a)
    ensures Equals(a, b) ==> Equals(b, a)
    ensures Equals(a, b) && Equals(b, c) ==> Equals(a, c)
    ensures AgreeExcept(a, b, FId) && a != b ==> !Equals(a, b)
    ensures a.id == b.id ==> Equals(a, b)
  {
  }

  /** Java `int` arithmetic: the value modulo 2^32, read as a signed number. */
  function WrapInt32(x: int): (r: Int32)
    ensures (r - x) % 0x1_0000_0000 == 0
  {
    var m := x % 0x1_0000_0000;
    if m > MaxInt32 then m - 0x1_0000_0000 else m
  }

  /** Bitwise exclusive or of two non-negative numbers. */
  function Xor(a: nat, b: nat): nat
    decreases a + b
  {
    if a == 0 && b == 0 then 0 else 2 * Xor(a / 2, b / 2) + (a % 2 + b % 2) % 2
  }

  lemma {:induction false} XorZero(a: nat)
    ensures Xor(a, 0) == a
  {
    if a != 0 {
      XorZero(a / 2);
    }
  }

  /** `Long.hashCode(v)`: the low 32 bits of `v ^ (v >>> 32)`, read as an `int`. */
  function LongHash(v: Int64): (h: Int32)
    ensures 0 <= v <= MaxInt32 ==> h == v
  {
    var u: nat := if v < 0 then v + 0x1_0000_0000_0000_0000 else v;
    var high := u / 0x1_0000_0000;
    var low := u % 0x1_0000_0000;
    XorZero(low);
    WrapInt32(Xor(low, high) % 0x1_0000_0000)
  }

  /** `Objects.hash(id)`: `31 * 1 + (id == null ? 0 : id.hashCode())` in `int` arithmetic. */
  function HashCode(t: Tenista): (h: Int32)
    ensures t.id.None? ==> h == 31
    ensures t.id.Some? && 0 <= t.id.value <= MaxInt32 - 31 ==> h == t.id.value + 31
  {
    WrapInt32(31 + match t.id case None => 0 case Some(v) => LongHash(v))
  }

  /** `hashCode` is consistent with `equals`. */
  lemma EqualsHashCode(a: Tenista, b: Tenista)
    requires Equals(a, b)
    ensures HashCode(a) == HashCode(b)
  {
  }

  function SetId(t: Tenista, v: Option<Int64>): (r: Tenista)
    ensures r.id == v && AgreeExcept(t, r, FId)
  {
    t.(id := v)
  }

  function SetNombre(t: Tenista, v: Option<string>): (r: Tenista)
    ensures r.nombre == v && AgreeExcept(t, r, FNombre)
  {
    t.(nombre := v)
  }

  function SetPais(t: Tenista, v: Option<string>): (r: Tenista)
    ensures r.pais == v && AgreeExcept(t, r, FPais)
  {
    t.(pais := v)
  }

  function SetAltura(t: Tenista, v: Int32): (r: Tenista)
    ensures r.altura == v && AgreeExcept(t, r, FAltura)
  {
    t.(altura := v)
  }

  function SetPeso(t: Tenista, v: Int32): (r: Tenista)
    ensures r.peso == v && AgreeExcept(t, r, FPeso)
  {
    t.(peso := v)
  }

  function SetPuntos(t: Tenista, v: Int32): (r: Tenista)
    ensures r.puntos == v && AgreeExcept(t, r, FPuntos)
  {
    t.(puntos := v)
  }

  function SetMano(t: Tenista, v: Option<Mano>): (r: Tenista)
    ensures r.mano == v && AgreeExcept(t, r, FMano)
  {
    t.(mano := v)
  }

  function SetFechaNacimiento(t: Tenista, v: Option<Date>): (r: Tenista)
    ensures r.fechaNacimiento == v && AgreeExcept(t, r, FFechaNacimiento)
  {
    t.(fechaNacimiento := v)
  }

  function SetCreatedAt(t: Tenista, v: Option<DateTime>): (r: Tenista)
    ensures r.createdAt == v && AgreeExcept(t, r, FCreatedAt)
  {
    t.(createdAt := v)
  }

  function SetUpdatedAt(t: Tenista, v: Option<DateTime>): (r: Tenista)
    ensures r.updatedAt == v && AgreeExcept(t, r, FUpdatedAt)
  {
    t.(updatedAt := v)
  }

  /** `copy()`: a record with the same ten fields, hence `equals` to the original. */
  function Copy(t: Tenista): (r: Tenista)
    ensures AgreeExcept(t, r, FId) && r.id == t.id
    ensures Equals(r, t)
  {
    Tenista(t.id, t.nombre, t.pais, t.altura, t.peso, t.puntos, t.mano,
            t.fechaNacimiento, t.createdAt, t.updatedAt)
  }

  /** `updateTimestamp()` with the clock reading `now` passed in. */
  function UpdateTimestamp(t: Tenista, now: DateTime): (r: Tenista)
    ensures r.updatedAt == Some(now) && AgreeExcept(t, r, FUpdatedAt)
    ensures Equals(r, t)
  {
    t.(updatedAt := Some(now))
  }

  /** The fields the writers dereference without a null check. */
  predicate Renderable(t: Tenista) {
    t.mano.Some? && t.fechaNacimiento.Some? && t.createdAt.Some? && t.updatedAt.Some?
  }

  /** Every record of the list can be written. */
  predicate AllRenderable(ts: seq<Tenista>) {
    forall k | 0 <= k < |ts| :: Renderable(ts[k])
  }

  /** `String.valueOf(id)` for a nullable `Long`. */
  function IdText(id: Option<Int64>): string
  {
    match id
    case None => "null"
    case Some(v) => IntToString(v)
  }

  /** A hand name is upper-case letters only. */
  lemma ManoNameLacks(m: Mano, x: char)
    requires !('A' <= x <= 'Z')
    ensures x !in ManoName(m)
  {
  }

  /** An id is printed with digits and a sign, or as `null`. */
  lemma IdTextLacks(id: Option<Int64>, x: char)
    requires !IsNumericChar(x) && !('a' <= x <= 'z')
    ensures x !in IdText(id)
  {
    if id.Some? {
      IntToStringLacks(id.value, x);
    }
  }

  /** Column names are lower-case letters and underscores only. */
  lemma ColumnNamesLack(x: char)
    requires !('a' <= x <= 'z') && x != '_'
    ensures forall k | 0 <= k < |ColumnNames| :: x !in ColumnNames[k]
  {
  }

  /** The column names the writers use, in the record's field order. */
  const ColumnNames: seq<string> :=
    ["id", "nombre", "pais", "altura", "peso", "puntos", "mano", "fecha_nacimiento", "created_at", "updated_at"]
}

=== FILE: text.dfy ===
/** The `java.lang.String` operations the pipeline relies on, written over
    `seq<char>`: `trim`, `isEmpty`, ASCII case mapping, `equalsIgnoreCase`,
    single-character `replace`, `String.join`, `split` and `lastIndexOf`. */
module JavaText {

  /** `String.trim` removes every leading and trailing character whose code is at most U+0020. */
  predicate IsTrimmed(c: char) {
    c <= ' '
  }

  /** Every character would be removed by `trim`. */
  predicate AllTrimmed(s: string) {
    forall k | 0 <= k < |s| :: IsTrimmed(s[k])
  }

  /** `s` without its leading trimmed characters (see `DropLeadingSlice`). */
  function DropLeading(s: string): (r: string)
    ensures |r| <= |s|
    ensures r == [] || !IsTrimmed(r[0])
  {
    if s == [] || !IsTrimmed(s[0]) then s else DropLeading(s[1..])
  }

  /** `DropLeading(s)` is the suffix of `s` after a run of trimmed characters. */
  lemma {:induction false} DropLeadingSlice(s: string)
    ensures var r := DropLeading(s); r == s[|s| - |r|..] && AllTrimmed(s[..|s| - |r|])
  {
    if s != [] && IsTrimmed(s[0]) {
      DropLeadingSlice(s[1..]);
      var r := DropLeading(s[1..]);
      assert s[..|s| - |r|] == [s[0]] + s[1..][..|s[1..]| - |r|];
    }
  }

  /** `s` without its trailing trimmed characters (see `DropTrailingSlice`). */
  function DropTrailing(s: string): (r: string)
    ensures |r| <= |s|
    ensures r == [] || !IsTrimmed(r[|r| - 1])
  {
    if s == [] || !IsTrimmed(s[|s| - 1]) then s else DropTrailing(s[..|s| - 1])
  }

  /** `DropTrailing(s)` is the prefix of `s` before a run of trimmed characters. */
  lemma {:induction false} DropTrailingSlice(s: string)
    ensures var r := DropTrailing(s); r == s[..|r|] && AllTrimmed(s[|r|..])
  {
    if s != [] && IsTrimmed(s[|s| - 1]) {
      DropTrailingSlice(s[..|s| - 1]);
      var r := DropTrailing(s[..|s| - 1]);
      assert s[|r|..] == s[..|s| - 1][|r|..] + [s[|s| - 1]];
    }
  }

  /** `String.trim`: `s` without its leading and trailing characters at or
      below U+0020 (see `TrimIsSlice` for the slice it is). */
  function Trim(s: string): (r: string)
    ensures |r| <= |s|
    ensures r == [] || (!IsTrimmed(r[0]) && !IsTrimmed(r[|r| - 1]))
    ensures r == [] <==> AllTrimmed(s)
    ensures s == [] || (!IsTrimmed(s[0]) && !IsTrimmed(s[|s| - 1])) ==> r == s
  {
    var a := DropLeading(s);
    var r := DropTrailing(a);
    DropLeadingSlice(s);
    DropTrailingSlice(a);
    TrimSlice(s, a, r);
    r
  }

  /** `Trim(s)` is a slice of `s` with only trimmed characters around it. */
  lemma TrimIsSlice(s: string)
    ensures exists i, j | 0 <= i <= j <= |s| ::
              Trim(s) == s[i..j] && AllTrimmed(s[..i]) && AllTrimmed(s[j..])
  {
    var a := DropLeading(s);
    var r := DropTrailing(a);
    DropLeadingSlice(s);
    DropTrailingSlice(a);
    TrimSlice(s, a, r);
    var i := |s| - |a|;
    assert Trim(s) == s[i..i + |r|];
  }

  lemma TrimSlice(s: string, a: string, r: string)
    requires |a| <= |s| && a == s[|s| - |a|..] && AllTrimmed(s[..|s| - |a|])
    requires a == [] || !IsTrimmed(a[0])
    requires |r| <= |a| && r == a[..|r|] && AllTrimmed(a[|r|..])
    ensures var i := |s| - |a|; r == s[i..i + |r|] && AllTrimmed(s[..i]) && AllTrimmed(s[i + |r|..])
    ensures r == [] <==> AllTrimmed(s)
  {
    var i := |s| - |a|;
    assert s == s[..i] + a;
    assert a == r + a[|r|..];
    assert r == s[i..i + |r|];
    assert s[i + |r|..] == a[|r|..];
    if r == [] {
      forall k | 0 <= k < |s|
        ensures IsTrimmed(s[k])
      {
        assert a == [];
        assert s[k] == s[..i][k];
      }
    } else {
      assert s[i] == r[0];
    }
  }

  /** `s.trim().isEmpty()`: every character is one `trim` removes (by the
      contract of `Trim`, exactly when `Trim(s) == []`). */
  predicate IsBlank(s: string) {
    AllTrimmed(s)
  }

  /** `Character.toUpperCase` restricted to ASCII letters. */
  function UpperChar(c: char): char {
    if 'a' <= c <= 'z' then (c as int - 32) as char else c
  }

  /** `Character.toLowerCase` restricted to ASCII letters. */
  function LowerChar(c: char): char {
    if 'A' <= c <= 'Z' then (c as int + 32) as char else c
  }

  function ToUpper(s: string): (r: string)
    ensures |r| == |s| && forall k | 0 <= k < |s| :: r[k] == UpperChar(s[k])
  {
    seq(|s|, k requires 0 <= k < |s| => UpperChar(s[k]))
  }

  function ToLower(s: string): (r: string)
    ensures |r| == |s| && forall k | 0 <= k < |s| :: r[k] == LowerChar(s[k])
  {
    seq(|s|, k requires 0 <= k < |s| => LowerChar(s[k]))
  }

  /** `String.equalsIgnoreCase`: same length, and each pair of characters agrees after case mapping. */
  predicate EqualsIgnoreCase(a: string, b: string) {
    |a| == |b| && forall k | 0 <= k < |a| :: UpperChar(a[k]) == UpperChar(b[k])
  }

  /** The result of `String.replace(c, rep)` for a one-character target:
      every occurrence of `c` is replaced by `rep`, left to right. */
  function ReplaceChar(s: string, c: char, rep: string): (r: string)
    ensures c !in s ==> r == s
    ensures c !in rep ==> c !in r
  {
    if s == [] then []
    else (if s[0] == c then rep else [s[0]]) + ReplaceChar(s[1..], c, rep)
  }

  lemma {:induction false} ReplaceCharAppend(a: string, b: string, c: char, rep: string)
    ensures ReplaceChar(a + b, c, rep) == ReplaceChar(a, c, rep) + ReplaceChar(b, c, rep)
  {
    if a == [] {
      assert a + b == b;
    } else {
      assert (a + b)[1..] == a[1..] + b;
      ReplaceCharAppend(a[1..], b, c, rep);
    }
  }

  /** `ReplaceChar` does not introduce a character that is neither in the input nor in the replacement. */
  lemma {:induction false} ReplaceCharKeepsAbsent(s: string, c: char, rep: string, x: char)
    requires x !in s && x !in rep
    ensures x !in ReplaceChar(s, c, rep)
  {
    if s != [] {
      ReplaceCharKeepsAbsent(s[1..], c, rep, x);
    }
  }

  /** `String.join(sep, parts)`. */
  function Join(sep: string, parts: seq<string>): string
  {
    if |parts| == 0 then ""
    else if |parts| == 1 then parts[0]
    else parts[0] + sep + Join(sep, parts[1..])
  }

  lemma {:induction false} JoinKeepsAbsent(sep: string, parts: seq<string>, x: char)
    requires x !in sep
    requires forall k | 0 <= k < |parts| :: x !in parts[k]
    ensures x !in Join(sep, parts)
  {
    if |parts| > 1 {
      JoinKeepsAbsent(sep, parts[1..], x);
    }
  }

  /** Index of the first occurrence of `d` in `s`. */
  function IndexOf(s: string, d: char): (i: nat)
    requires d in s
    ensures i < |s| && s[i] == d && d !in s[..i]
  {
    if s[0] == d then 0
    else
      var i := IndexOf(s[1..], d) + 1;
      assert s[..i] == [s[0]] + s[1..][..i - 1];
      i
  }

  lemma {:induction false} IndexOfAt(s: string, d: char, j: nat)
    requires j < |s| && s[j] == d && d !in s[..j]
    ensures IndexOf(s, d) == j
  {
    if j > 0 {
      assert s[0] in s[..j];
      assert s[1..][j - 1] == d;
      assert s[1..][..j - 1] == s[1..j];
      assert forall x | x in s[1..j] :: x in s[..j];
      IndexOfAt(s[1..], d, j - 1);
    }
  }

  /** The pieces between consecutive occurrences of `d` (empty pieces kept). */
  function SplitAll(s: string, d: char): (r: seq<string>)
    ensures |r| >= 1
    ensures forall k | 0 <= k < |r| :: d !in r[k]
    decreases |s|
  {
    if d !in s then [s]
    else
      var i := IndexOf(s, d);
      [s[..i]] + SplitAll(s[i + 1..], d)
  }

  /** Joining the pieces with the delimiter gives back the original string. */
  lemma {:induction false} JoinSplitAll(s: string, d: char)
    ensures Join([d], SplitAll(s, d)) == s
    decreases |s|
  {
    if d in s {
      var i := IndexOf(s, d);
      var rest := SplitAll(s[i + 1..], d);
      JoinSplitAll(s[i + 1..], d);
      JoinCons([d], s[..i], rest);
      assert s == s[..i] + [d] + s[i + 1..];
    }
  }

  /** One step of a join, from piece `k` on. */
  lemma JoinFrom(sep: string, parts: seq<string>, k: nat)
    requires k + 1 < |parts|
    ensures Join(sep, parts[k..]) == parts[k] + sep + Join(sep, parts[k + 1..])
  {
    assert parts[k..][1..] == parts[k + 1..];
  }

  lemma JoinCons(sep: string, first: string, rest: seq<string>)
    requires |rest| >= 1
    ensures Join(sep, [first] + rest) == first + sep + Join(sep, rest)
  {
    assert ([first] + rest)[1..] == rest;
  }

  /** Splitting a join of delimiter-free pieces gives back the pieces. */
  lemma {:induction false} SplitAllJoin(parts: seq<string>, d: char)
    requires |parts| >= 1
    requires forall k | 0 <= k < |parts| :: d !in parts[k]
    ensures SplitAll(Join([d], parts), d) == parts
  {
    if |parts| > 1 {
      var tail := Join([d], parts[1..]);
      var s := parts[0] + [d] + tail;
      assert Join([d], parts) == s;
      assert s[|parts[0]|] == d;
      assert s[..|parts[0]|] == parts[0];
      IndexOfAt(s, d, |parts[0]|);
      var i := |parts[0]|;
      assert s[i + 1..] == tail;
      SplitAllJoin(parts[1..], d);
      assert parts == [parts[0]] + parts[1..];
    }
  }

  /** Removes the empty strings at the end of a list. */
  function DropTrailingEmpty(p: seq<string>): (r: seq<string>)
    ensures |r| <= |p| && r == p[..|r|]
    ensures r == [] || r[|r| - 1] != []
    ensures forall k | |r| <= k < |p| :: p[k] == []
  {
    if p == [] || p[|p| - 1] != [] then p
    else DropTrailingEmpty(p[..|p| - 1])
  }

  /** `String.split(String.valueOf(d))` with limit 0: a string without the
      delimiter is returned whole (so `""` splits into `[""]`); otherwise the
      pieces around every delimiter, with trailing empty pieces removed. */
  function JavaSplit(s: string, d: char): (r: seq<string>)
    ensures forall k | 0 <= k < |r| :: d !in r[k]
    ensures d !in s ==> r == [s]
    ensures d in s ==> r == DropTrailingEmpty(SplitAll(s, d))
  {
    if d !in s then [s] else DropTrailingEmpty(SplitAll(s, d))
  }

  /** When the last piece is not empty, `JavaSplit` keeps every piece. */
  lemma JavaSplitOfJoin(parts: seq<string>, d: char)
    requires |parts| >= 1 && parts[|parts| - 1] != []
    requires forall k | 0 <= k < |parts| :: d !in parts[k]
    ensures JavaSplit(Join([d], parts), d) == parts
  {
    SplitAllJoin(parts, d);
  }

  /** `String.lastIndexOf(c)`: -1 when absent. */
  function LastIndexOf(s: string, c: char): (r: int)
    ensures -1 <= r < |s|
    ensures r >= 0 ==> s[r] == c
    ensures forall k | r < k < |s| :: s[k] != c
  {
    if s == [] then -1
    else if s[|s| - 1] == c then |s| - 1
    else LastIndexOf(s[..|s| - 1], c)
  }

  /** Does `prefix` start `s`? */
  predicate StartsWith(s: string, prefix: string) {
    |prefix| <= |s| && s[..|prefix|] == prefix
  }

  /** Number of occurrences of `c` in `s`. */
  function CountChar(s: string, c: char): nat
  {
    if s == [] then 0 else (if s[0] == c then 1 else 0) + CountChar(s[1..], c)
  }

  lemma {:induction false} CountCharAppend(a: string, b: string, c: char)
    ensures CountChar(a + b, c) == CountChar(a, c) + CountChar(b, c)
  {
    if a == [] {
      assert a + b == b;
    } else {
      assert (a + b)[1..] == a[1..] + b;
      CountCharAppend(a[1..], b, c);
    }
  }

  lemma {:induction false} CountCharAbsent(s: string, c: char)
    requires c !in s
    ensures CountChar(s, c) == 0
  {
    if s != [] {
      CountCharAbsent(s[1..], c);
    }
  }

  /** One occurrence of `c` between two texts that hold none. */
  lemma CountCharOne(pre: string, c: char, post: string)
    requires c !in pre && c !in post
    ensures CountChar(pre + [c] + post, c) == 1
  {
    CountCharAppend(pre + [c], post, c);
    CountCharAppend(pre, [c], c);
    CountCharAbsent(pre, c);
    CountCharAbsent(post, c);
    assert [c][1..] == [];
  }

  /** The texts `render` gives for the items, in order. */
  function Mapped<T>(xs: seq<T>, render: T --> string): (r: seq<string>)
    requires forall k | 0 <= k < |xs| :: render.requires(xs[k])
    ensures |r| == |xs|
  {
    seq(|xs|, k requires 0 <= k < |xs| => render(xs[k]))
  }

  /** The texts `render` gives for the items, concatenated in order (a
      writer fed one item after another). */
  function ConcatMap<T>(xs: seq<T>, render: T --> string): string
    requires forall k | 0 <= k < |xs| :: render.requires(xs[k])
  {
    if xs == [] then "" else render(xs[0]) + ConcatMap(xs[1..], render)
  }

  /** Items `render` accepts still are after concatenating two lists. */
  lemma AppendAccepted<T>(xs: seq<T>, ys: seq<T>, render: T --> string)
    requires forall k | 0 <= k < |xs| :: render.requires(xs[k])
    requires forall k | 0 <= k < |ys| :: render.requires(ys[k])
    ensures forall k | 0 <= k < |xs + ys| :: render.requires((xs + ys)[k])
  {
    var zs := xs + ys;
    forall k | 0 <= k < |zs| ensures render.requires(zs[k]) {
      if k < |xs| { assert zs[k] == xs[k]; } else { assert zs[k] == ys[k - |xs|]; }
    }
  }

  lemma {:induction false} ConcatMapAppend<T>(xs: seq<T>, ys: seq<T>, render: T --> string)
    requires forall k | 0 <= k < |xs| :: render.requires(xs[k])
    requires forall k | 0 <= k < |ys| :: render.requires(ys[k])
    ensures forall k | 0 <= k < |xs + ys| :: render.requires((xs + ys)[k])
    ensures ConcatMap(xs + ys, render) == ConcatMap(xs, render) + ConcatMap(ys, render)
  {
    AppendAccepted(xs, ys, render);
    if xs == [] {
      assert xs + ys == ys;
    } else {
      var zs := xs + ys;
      assert zs[0] == xs[0] && zs[1..] == xs[1..] + ys;
      ConcatMapAppend(xs[1..], ys, render);
      var h := render(xs[0]);
      assert ConcatMap(zs, render) == h + ConcatMap(xs[1..] + ys, render);
      assert ConcatMap(xs, render) == h + ConcatMap(xs[1..], render);
    }
  }

  lemma MulStep(n: nat, m: nat)
    ensures n * (m + 1) == n * m + n
  {
  }

  /** Items rendered with `n` occurrences of `c` each give `n` per item. */
  lemma {:induction false} ConcatMapCount<T>(xs: seq<T>, render: T --> string, c: char, n: nat)
    requires forall k | 0 <= k < |xs| :: render.requires(xs[k]) && CountChar(render(xs[k]), c) == n
    ensures CountChar(ConcatMap(xs, render), c) == n * |xs|
  {
    if xs != [] {
      ConcatMapCount(xs[1..], render, c, n);
      CountCharAppend(render(xs[0]), ConcatMap(xs[1..], render), c);
      MulStep(n, |xs[1..]|);
    }
  }
}

=== FILE: validator.dfy ===
/** `TenistaValidator`: per-field checks that return a list of at most one
    message, the aggregate check `validar`, and the two converters for the
    hand and the birth date. The clock read of `LocalDate.now()` is the
    parameter `today`. */
module Validator {
  import opened Wrappers
  import opened Numbers
  import opened Dates
  import opened JavaText
  import opened Model

  const MinAltura: Int32 := 140
  const MaxAltura: Int32 := 230
  const MinPeso: Int32 := 40
  const MaxPeso: Int32 := 150
  const MinPuntos: Int32 := 0
  const MaxPuntos: Int32 := 20000
  const MaxEdad: int := 60
  const MinEdad: int := 16
  const MaxLongitudNombre: nat := 100
  const MaxLongitudPais: nat := 50

  /** `\s` of `java.util.regex`: space, tab, line feed, vertical tab, form feed, carriage return. */
  predicate IsRegexSpace(c: char) {
    c == ' ' || c == '\t' || c == '\n' || c == '\U{000B}' || c == '\U{000C}' || c == '\r'
  }

  /** The class `[a-zA-ZÀ-ÿñÑ\s'-]`. The range U+00C0..U+00FF also
      holds the signs U+00D7 and U+00F7, and already holds ñ and Ñ. */
  predicate IsNameChar(c: char) {
    ('a' <= c <= 'z') || ('A' <= c <= 'Z') || ('À' <= c <= 'ÿ')
    || c == 'ñ' || c == 'Ñ' || IsRegexSpace(c) || c == '\'' || c == '-'
  }

  /** `s.matches("^[...]+$")`: non-empty and every character in the class. */
  predicate MatchesNamePattern(s: string) {
    |s| >= 1 && forall k | 0 <= k < |s| :: IsNameChar(s[k])
  }

  /** The four messages of a text field check, in the order they are tried. */
  datatype TextMessages = TextMessages(blank: string, tooShort: string, tooLong: string, badChars: string)

  const NombreMessages := TextMessages(
    "El nombre no puede estar vacío",
    "El nombre debe tener al menos 2 caracteres",
    "El nombre no puede exceder 100 caracteres",
    "El nombre solo puede contener letras, espacios, apostrofes y guiones")

  const PaisMessages := TextMessages(
    "El país no puede estar vacío",
    "El país debe tener al menos 2 caracteres",
    "El país no puede exceder 50 caracteres",
    "El país solo puede contener letras, espacios, apostrofes y guiones")

  /** A text field passes its check: present, 2..`maxLen` characters once
      trimmed, and (untrimmed) made only of characters of the class. */
  predicate TextOk(v: Option<string>, maxLen: nat) {
    v.Some? && 2 <= |Trim(v.value)| <= maxLen && MatchesNamePattern(v.value)
  }

  /** The else-if chain shared by `validarNombre` and `validarPais`: blank,
      then trimmed length below 2, then above `maxLen`, then character class. */
  function CheckText(v: Option<string>, maxLen: nat, msgs: TextMessages): (r: seq<string>)
    ensures |r| <= 1
    ensures r == [] <==> TextOk(v, maxLen)
    ensures (v.None? || IsBlank(v.value)) ==> r == [msgs.blank]
    ensures v.Some? && !IsBlank(v.value) && |Trim(v.value)| < 2 ==> r == [msgs.tooShort]
    ensures v.Some? && 2 <= |Trim(v.value)| && |Trim(v.value)| > maxLen ==> r == [msgs.tooLong]
    ensures v.Some? && 2 <= |Trim(v.value)| <= maxLen && !MatchesNamePattern(v.value) ==> r == [msgs.badChars]
  {
    if v.None? || IsBlank(v.value) then [msgs.blank]
    else if |Trim(v.value)| < 2 then [msgs.tooShort]
    else if |Trim(v.value)| > maxLen then [msgs.tooLong]
    else if !MatchesNamePattern(v.value) then [msgs.badChars]
    else []
  }

  function ValidarNombre(nombre: Option<string>): (r: seq<string>)
    ensures |r| <= 1
    ensures r == [] <==> TextOk(nombre, MaxLongitudNombre)
  {
    CheckText(nombre, MaxLongitudNombre, NombreMessages)
  }

  function ValidarPais(pais: Option<string>): (r: seq<string>)
    ensures |r| <= 1
    ensures r == [] <==> TextOk(pais, MaxLongitudPais)
  {
    CheckText(pais, MaxLongitudPais, PaisMessages)
  }

  /** `validarPais` is `validarNombre` with the upper bound 50 and the
      country messages: a value both accept is at most 50 characters long,
      and from 51 to 100 trimmed characters only the country check objects. */
  lemma PaisIsNombreWithShorterBound(v: Option<string>)
    ensures ValidarPais(v) == [] ==> ValidarNombre(v) == []
    ensures v.Some? && 50 < |Trim(v.value)| <= 100 && MatchesNamePattern(v.value) ==>
              ValidarNombre(v) == [] && ValidarPais(v) == [PaisMessages.tooLong]
  {
  }

  /** An integer check: one message below `lo`, another above `hi`. */
  function CheckRange(x: int, lo: int, hi: int, belowMsg: string, aboveMsg: string): (r: seq<string>)
    ensures |r| <= 1
    ensures r == [] <==> lo <= x <= hi
    ensures x < lo ==> r == [belowMsg]
    ensures lo <= x && x > hi ==> r == [aboveMsg]
  {
    if x < lo then [belowMsg] else if x > hi then [aboveMsg] else []
  }

  function ValidarAltura(altura: Int32): (r: seq<string>)
    ensures |r| <= 1
    ensures r == [] <==> 140 <= altura <= 230
  {
    CheckRange(altura, MinAltura, MaxAltura,
      "La altura debe ser mayor a " + IntToString(MinAltura) + " cm",
      "La altura debe ser menor a " + IntToString(MaxAltura) + " cm")
  }

  function ValidarPeso(peso: Int32): (r: seq<string>)
    ensures |r| <= 1
    ensures r == [] <==> 40 <= peso <= 150
  {
    CheckRange(peso, MinPeso, MaxPeso,
      "El peso debe ser mayor a " + IntToString(MinPeso) + " kg",
      "El peso debe ser menor a " + IntToString(MaxPeso) + " kg")
  }

  function ValidarPuntos(puntos: Int32): (r: seq<string>)
    ensures |r| <= 1
    ensures r == [] <==> 0 <= puntos <= 20000
  {
    CheckRange(puntos, MinPuntos, MaxPuntos,
      "Los puntos no pueden ser negativos",
      "Los puntos no pueden exceder " + IntToString(MaxPuntos))
  }

  function ValidarMano(mano: Option<Mano>): (r: seq<string>)
    ensures |r| <= 1
    ensures r == [] <==> mano.Some?
  {
    if mano.None? then ["La mano no puede ser nula"] else []
  }

  /** The age window: born no earlier than 60 years before `today` and no
      later than 16 years before it, both bounds included. */
  predicate InAgeWindow(f: Date, today: Date) {
    !IsBefore(f, MinusYears(today, MaxEdad)) && !IsAfter(f, MinusYears(today, MinEdad))
  }

  function ValidarFechaNacimiento(fecha: Option<Date>, today: Date): (r: seq<string>)
    ensures |r| <= 1
    ensures r == [] <==> fecha.Some? && InAgeWindow(fecha.value, today)
  {
    if fecha.None? then ["La fecha de nacimiento no puede ser nula"]
    else
      var fechaMinima := MinusYears(today, MaxEdad);
      var fechaMaxima := MinusYears(today, MinEdad);
      if IsBefore(fecha.value, fechaMinima) then ["El tenista no puede tener más de 60 años"]
      else if IsAfter(fecha.value, fechaMaxima) then ["El tenista debe tener al menos 16 años"]
      else []
  }

  /** The age window in terms of birthdays: at least 16 birthdays had, and
      fewer than 60 unless the 60th birthday is today. */
  lemma AgeWindowByBirthdays(f: Date, today: Date)
    ensures InAgeWindow(f, today) <==>
              AgeInYears(f, today) >= 16 && (AgeInYears(f, today) < 60 || f == MinusYears(today, 60))
  {
    NotAfterMinusYearsIsAge(f, today, 16);
    NotAfterMinusYearsIsAge(f, today, 60);
  }

  /** `validar`: the seven field lists concatenated in the order nombre,
      pais, altura, peso, puntos, mano, fecha de nacimiento. */
  function Validar(t: Tenista, today: Date): seq<string>
  {
    ValidarNombre(t.nombre) + ValidarPais(t.pais) + ValidarAltura(t.altura) + ValidarPeso(t.peso)
      + ValidarPuntos(t.puntos) + ValidarMano(t.mano) + ValidarFechaNacimiento(t.fechaNacimiento, today)
  }

  /** Every field rule of the record, stated directly. */
  predicate FieldsValid(t: Tenista, today: Date) {
    && TextOk(t.nombre, 100) && TextOk(t.pais, 50)
    && 140 <= t.altura <= 230 && 40 <= t.peso <= 150 && 0 <= t.puntos <= 20000
    && t.mano.Some? && t.fechaNacimiento.Some? && InAgeWindow(t.fechaNacimiento.value, today)
  }

  /** `validar` reports nothing exactly when every field rule holds, and
      otherwise reports one message per failing field, at most seven. */
  lemma ValidarEmptyIffFieldsValid(t: Tenista, today: Date)
    ensures Validar(t, today) == [] <==> FieldsValid(t, today)
    ensures |Validar(t, today)| <= 7
    ensures !TextOk(t.nombre, 100) ==> Validar(t, today)[0] == ValidarNombre(t.nombre)[0]
  {
  }

  /** `esValido`. */
  function EsValido(t: Tenista, today: Date): (b: bool)
    ensures b <==> FieldsValid(t, today)
  {
    ValidarEmptyIffFieldsValid(t, today);
    Validar(t, today) == []
  }

  /** `validarYArrojarExcepcion`: passes exactly for a valid record, and
      otherwise throws one exception carrying every message of `validar`. */
  function ValidarYArrojarExcepcion(t: Tenista, today: Date): (r: Outcome)
    ensures r.Pass? <==> FieldsValid(t, today)
    ensures r.Fail? ==> r.error == ValidationException("Errores de validación: " + Join(", ", Validar(t, today)))
  {
    ValidarEmptyIffFieldsValid(t, today);
    var errores := Validar(t, today);
    if errores != [] then Fail(ValidationException("Errores de validación: " + Join(", ", errores)))
    else Pass
  }

  /** `validarYConvertirFecha`: blank text and text `LocalDate.parse` rejects
      both throw `DateTimeParseException`, with different messages. */
  function ValidarYConvertirFecha(fechaStr: Option<string>): (r: Result<Date>)
    ensures (fechaStr.None? || IsBlank(fechaStr.value)) ==>
              r == Failure(DateTimeParseException("La fecha no puede estar vacía"))
    ensures r.Failure? ==> r.error.DateTimeParseException?
    ensures r.Success? ==> fechaStr.Some? && ParseDate(Trim(fechaStr.value)) == Some(r.value)
  {
    if fechaStr.None? || IsBlank(fechaStr.value) then
      Failure(DateTimeParseException("La fecha no puede estar vacía"))
    else match ParseDate(Trim(fechaStr.value))
      case Some(d) => Success(d)
      case None => Failure(DateTimeParseException("Formato de fecha inválido. Use yyyy-MM-dd"))
  }

  /** The alias table of `validarYConvertirMano`, keyed by upper-case text. */
  const ManoAliases: map<string, Mano> := map[
    "DIESTRO" := Derecha, "DERECHA" := Derecha, "RIGHT" := Derecha,
    "ZURDO" := Izquierda, "IZQUIERDA" := Izquierda, "LEFT" := Izquierda]

  /** `validarYConvertirMano`: the trimmed, upper-cased text looked up in the
      alias table; blank text and unknown text throw `IllegalArgumentException`. */
  function ValidarYConvertirMano(manoStr: Option<string>): (r: Result<Mano>)
    ensures (manoStr.None? || IsBlank(manoStr.value)) ==>
              r == Failure(IllegalArgumentException("La mano no puede estar vacía"))
    ensures r.Failure? ==> r.error.IllegalArgumentException?
    ensures r.Success? <==> manoStr.Some? && ToUpper(Trim(manoStr.value)) in ManoAliases
    ensures r.Success? ==> r.value == ManoAliases[ToUpper(Trim(manoStr.value))]
  {
    if manoStr.None? || IsBlank(manoStr.value) then
      Failure(IllegalArgumentException("La mano no puede estar vacía"))
    else
      var manoUpper := ToUpper(Trim(manoStr.value));
      if manoUpper in ManoAliases then Success(ManoAliases[manoUpper])
      else Failure(IllegalArgumentException(
        "Mano inválida: " + manoStr.value + ". Use DIESTRO/ZURDO o DERECHA/IZQUIERDA"))
  }

  /** The conversion gives the right hand exactly for `DIESTRO`, `DERECHA`
      and `RIGHT`, and the left hand exactly for `ZURDO`, `IZQUIERDA` and
      `LEFT`, in any letter case and surrounded by any blanks. */
  lemma ManoAliasesDecide(s: string)
    ensures ValidarYConvertirMano(Some(s)) == Success(Derecha) <==>
              ToUpper(Trim(s)) in {"DIESTRO", "DERECHA", "RIGHT"}
    ensures ValidarYConvertirMano(Some(s)) == Success(Izquierda) <==>
              ToUpper(Trim(s)) in {"ZURDO", "IZQUIERDA", "LEFT"}
  {
  }

  /** Trimmed text whose upper-case form is an alias converts to that alias's hand. */
  lemma ConvertsAlias(s: string)
    requires s != [] && Trim(s) == s && ToUpper(s) in ManoAliases
    ensures ValidarYConvertirMano(Some(s)) == Success(ManoAliases[ToUpper(s)])
  {
  }

  /** The name the writers print for a hand converts back to that hand. */
  lemma ManoNameConverts(m: Mano)
    ensures ValidarYConvertirMano(Some(ManoName(m))) == Success(m)
  {
    var n := ManoName(m);
    assert ToUpper(n) == n && n in ManoAliases && ManoAliases[n] == m by { UpperOfName(m); AliasOfName(m); }
    ConvertsAlias(n);
  }

  /** The conversion ignores letter case: the lower-case name converts too. */
  lemma LowerManoNameConverts(m: Mano)
    ensures ValidarYConvertirMano(Some(ToLower(ManoName(m)))) == Success(m)
  {
    var n, l := ManoName(m), ToLower(ManoName(m));
    assert ToUpper(l) == n && n in ManoAliases && ManoAliases[n] == m by { UpperOfName(m); AliasOfName(m); }
    ConvertsAlias(l);
  }

  lemma UpperOfName(m: Mano)
    ensures ToUpper(ManoName(m)) == ManoName(m)
    ensures ToUpper(ToLower(ManoName(m))) == ManoName(m)
  {
  }

  lemma AliasOfName(m: Mano)
    ensures ManoName(m) in ManoAliases && ManoAliases[ManoName(m)] == m
  {
    match m
    case Derecha => assert ManoAliases["DERECHA"] == Derecha;
    case Izquierda => assert ManoAliases["IZQUIERDA"] == Izquierda;
  }
}

=== FILE: wrappers.dfy ===
/** Failure-compatible wrappers shared by the whole model: `Option` stands
    for a nullable Java reference; `Result` for a value or the exception the
    Java code would throw, with its class and its `getMessage()` text. */
module Wrappers {

  datatype Option<+T> = None | Some(value: T) {

    predicate IsFailure() {
      None?
    }

    function PropagateFailure<U>(): Option<U>
      requires None?
    {
      None
    }

    function Extract(): T
      requires Some?
    {
      value
    }
  }

  /** The exception classes the core throws or catches. */
  datatype Exception =
    | NumberFormatException(message: string)
    | DateTimeParseException(message: string)
    | IllegalArgumentException(message: string)
    | IOException(message: string)
    | ValidationException(message: string)

  datatype Result<+R> = Success(value: R) | Failure(error: Exception) {

    predicate IsFailure() {
      Failure?
    }

    function PropagateFailure<U>(): Result<U>
      requires Failure?
    {
      Failure(error)
    }

    function Extract(): R
      requires Success?
    {
      value
    }
  }

  /** A check that either passes or throws (a `void` method that may throw). */
  datatype Outcome = Pass | Fail(error: Exception) {

    predicate IsFailure() {
      Fail?
    }

    function PropagateFailure<U>(): Result<U>
      requires Fail?
    {
      Failure(error)
    }
  }
}

=== FILE: xml_writer.dfy ===
/** `XmlWriter`: entity escaping of free text, one `<tenista>` element per
    record holding one child element per column, and the document as the
    XML declaration followed by the `<tenistas>` root. The file is the
    string `Document` returns. */
module XmlWriter {
  import opened Wrappers
  import opened Numbers
  import opened Dates
  import opened JavaText
  import opened Model

  /** The five characters `escaparXML` rewrites. */
  predicate IsSpecial(c: char) {
    c == '&' || c == '<' || c == '>' || c == '"' || c == '\''
  }

  predicate HasSpecial(v: string) {
    exists k | 0 <= k < |v| :: IsSpecial(v[k])
  }

  /** The replacement chain of `escaparXML`, in source order: `&` first,
      so the entities written by the later steps are not rewritten. */
  function Replaced(v: string): string {
    ReplaceChar(ReplaceChar(ReplaceChar(ReplaceChar(ReplaceChar(
      v, '&', "&amp;"), '<', "&lt;"), '>', "&gt;"), '"', "&quot;"), '\'', "&apos;")
  }

  /** `escaparXML`: null is the empty text; a value without any of the five
      characters is written as it is. */
  function Escape(valor: Option<string>): (r: string)
    ensures valor.None? ==> r == ""
    ensures valor.Some? && !HasSpecial(valor.value) ==> r == valor.value
  {
    match valor
    case None => ""
    case Some(v) => Replaced(v)
  }

  /** The entity each special character becomes; any other character stays. */
  function EncodeChar(c: char): string {
    if c == '&' then "&amp;"
    else if c == '<' then "&lt;"
    else if c == '>' then "&gt;"
    else if c == '"' then "&quot;"
    else if c == '\'' then "&apos;"
    else [c]
  }

  /** Character-by-character entity encoding, the reference for `Replaced`. */
  function Encode(v: string): string {
    if v == [] then [] else EncodeChar(v[0]) + Encode(v[1..])
  }

  lemma ReplacedAppend(a: string, b: string)
    ensures Replaced(a + b) == Replaced(a) + Replaced(b)
  {
    var a1, b1 := ReplaceChar(a, '&', "&amp;"), ReplaceChar(b, '&', "&amp;");
    ReplaceCharAppend(a, b, '&', "&amp;");
    var a2, b2 := ReplaceChar(a1, '<', "&lt;"), ReplaceChar(b1, '<', "&lt;");
    ReplaceCharAppend(a1, b1, '<', "&lt;");
    var a3, b3 := ReplaceChar(a2, '>', "&gt;"), ReplaceChar(b2, '>', "&gt;");
    ReplaceCharAppend(a2, b2, '>', "&gt;");
    var a4, b4 := ReplaceChar(a3, '"', "&quot;"), ReplaceChar(b3, '"', "&quot;");
    ReplaceCharAppend(a3, b3, '"', "&quot;");
    ReplaceCharAppend(a4, b4, '\'', "&apos;");
  }

  /** `ReplaceChar` on a one-character text. */
  lemma ReplaceOne(c: char, d: char, rep: string)
    ensures ReplaceChar([c], d, rep) == if c == d then rep else [c]
  {
    assert [c][1..] == [];
  }

  /** A character other than the five passes through the chain unchanged. */
  lemma ReplacedPlain(c: char)
    requires !IsSpecial(c)
    ensures Replaced([c]) == [c]
  {
  }

  lemma ReplacedAmp()
    ensures Replaced("&") == "&amp;"
  {
    ReplaceOne('&', '&', "&amp;");
    assert '<' !in "&amp;";
    assert '>' !in "&amp;";
    assert '"' !in "&amp;";
    assert '\'' !in "&amp;";
  }

  lemma ReplacedLt()
    ensures Replaced("<") == "&lt;"
  {
    assert ReplaceChar("<", '&', "&amp;") == "<";
    ReplaceOne('<', '<', "&lt;");
    assert '>' !in "&lt;";
    assert '"' !in "&lt;";
    assert '\'' !in "&lt;";
  }

  lemma ReplacedGt()
    ensures Replaced(">") == "&gt;"
  {
    assert ReplaceChar(">", '&', "&amp;") == ">";
    assert ReplaceChar(">", '<', "&lt;") == ">";
    ReplaceOne('>', '>', "&gt;");
    assert '"' !in "&gt;";
    assert '\'' !in "&gt;";
  }

  lemma ReplacedQuot()
    ensures Replaced("\"") == "&quot;"
  {
    assert ReplaceChar("\"", '&', "&amp;") == "\"";
    assert ReplaceChar("\"", '<', "&lt;") == "\"";
    assert ReplaceChar("\"", '>', "&gt;") == "\"";
    ReplaceOne('"', '"', "&quot;");
    assert '\'' !in "&quot;";
  }

  lemma ReplacedApos()
    ensures Replaced("'") == "&apos;"
  {
    assert ReplaceChar("'", '&', "&amp;") == "'";
    assert ReplaceChar("'", '<', "&lt;") == "'";
    assert ReplaceChar("'", '>', "&gt;") == "'";
    assert ReplaceChar("'", '"', "&quot;") == "'";
    ReplaceOne('\'', '\'', "&apos;");
  }

  lemma ReplacedChar(c: char)
    ensures Replaced([c]) == EncodeChar(c)
  {
    if c == '&' {
      ReplacedAmp();
    } else if c == '<' {
      ReplacedLt();
    } else if c == '>' {
      ReplacedGt();
    } else if c == '"' {
      ReplacedQuot();
    } else if c == '\'' {
      ReplacedApos();
    } else {
      ReplacedPlain(c);
    }
  }

  /** The replacement chain is the per-character encoding: replacing `&`
      first means no entity is encoded twice. */
  lemma {:induction false} ReplacedIsEncode(v: string)
    ensures Replaced(v) == Encode(v)
  {
    if v != [] {
      assert v == [v[0]] + v[1..];
      ReplacedAppend([v[0]], v[1..]);
      ReplacedChar(v[0]);
      ReplacedIsEncode(v[1..]);
    }
  }

  /** How an XML parser reads character data back: each of the five
      predefined entities becomes its character. */
  function Decode(s: string): string
    decreases |s|
  {
    if s == [] then []
    else if s[0] != '&' then [s[0]] + Decode(s[1..])
    else if StartsWith(s, "&amp;") then "&" + Decode(s[5..])
    else if StartsWith(s, "&lt;") then "<" + Decode(s[4..])
    else if StartsWith(s, "&gt;") then ">" + Decode(s[4..])
    else if StartsWith(s, "&quot;") then "\"" + Decode(s[6..])
    else if StartsWith(s, "&apos;") then "'" + Decode(s[6..])
    else [s[0]] + Decode(s[1..])
  }

  /** An entity followed by more text starts with the entity. */
  lemma EntityPrefix(e: string, rest: string)
    ensures StartsWith(e + rest, e) && (e + rest)[|e|..] == rest
  {
    assert (e + rest)[..|e|] == e;
  }

  /** A text that differs from `p` at position `i` does not start with `p`. */
  lemma NotPrefix(s: string, p: string, i: nat)
    requires i < |p| && i < |s| && s[i] != p[i]
    ensures !StartsWith(s, p)
  {
    if |p| <= |s| {
      assert s[..|p|][i] == s[i];
    }
  }

  lemma DecodeEncodeChar(c: char, rest: string)
    ensures Decode(EncodeChar(c) + rest) == [c] + Decode(rest)
  {
    var e := EncodeChar(c);
    var s := e + rest;
    EntityPrefix(e, rest);
    if !IsSpecial(c) {
      assert s[0] == c && s[1..] == rest;
    } else if c == '<' {
      assert e == "&lt;" && s[1] == 'l';
      NotPrefix(s, "&amp;", 1);
    } else if c == '>' {
      assert e == "&gt;" && s[1] == 'g';
      NotPrefix(s, "&amp;", 1);
      NotPrefix(s, "&lt;", 1);
    } else if c == '"' {
      assert e == "&quot;" && s[1] == 'q';
      NotPrefix(s, "&amp;", 1);
      NotPrefix(s, "&lt;", 1);
      NotPrefix(s, "&gt;", 1);
    } else if c == '\'' {
      assert e == "&apos;" && s[1] == 'a' && s[2] == 'p';
      NotPrefix(s, "&amp;", 2);
      NotPrefix(s, "&lt;", 1);
      NotPrefix(s, "&gt;", 1);
      NotPrefix(s, "&quot;", 1);
    }
  }

  lemma {:induction false} DecodeEncode(v: string)
    ensures Decode(Encode(v)) == v
  {
    if v != [] {
      DecodeEncodeChar(v[0], Encode(v[1..]));
      DecodeEncode(v[1..]);
      assert v == [v[0]] + v[1..];
    }
  }

  /** Reading an escaped value back gives the value. */
  lemma EscapeRoundTrip(v: string)
    ensures Decode(Escape(Some(v))) == v
  {
    ReplacedIsEncode(v);
    DecodeEncode(v);
  }

  /** `s` starts with one of the five predefined entities. */
  predicate EntityStart(s: string) {
    StartsWith(s, "&amp;") || StartsWith(s, "&lt;") || StartsWith(s, "&gt;")
    || StartsWith(s, "&quot;") || StartsWith(s, "&apos;")
  }

  /** Every `&` of `s` begins a predefined entity. */
  predicate AmpersandsAreEntities(s: string) {
    forall i | 0 <= i < |s| && s[i] == '&' :: EntityStart(s[i..])
  }

  /** Encoding one character in front of text whose `&`s begin entities
      keeps that so: the only `&` it adds begins its own entity. */
  lemma EncodeCharAmpersands(c: char, rest: string)
    requires AmpersandsAreEntities(rest)
    ensures AmpersandsAreEntities(EncodeChar(c) + rest)
  {
    var e := EncodeChar(c);
    var s := e + rest;
    EntityPrefix(e, rest);
    forall i | 0 <= i < |s| && s[i] == '&' ensures EntityStart(s[i..]) {
      if i < |e| {
        assert s[i] == e[i];
        assert i == 0;
        assert s[i..] == s;
      } else {
        assert s[i..] == rest[i - |e|..];
        assert rest[i - |e|] == '&';
      }
    }
  }

  /** In encoded text every `&` begins one of the five entities. */
  lemma {:induction false} EncodeAmpersands(v: string)
    ensures AmpersandsAreEntities(Encode(v))
  {
    if v != [] {
      EncodeAmpersands(v[1..]);
      EncodeCharAmpersands(v[0], Encode(v[1..]));
    }
  }

  /** `&` is replaced first, so every `&` left in an escaped value begins
      `&amp;`, `&lt;`, `&gt;`, `&quot;` or `&apos;`. */
  lemma EscapeAmpersands(v: Option<string>)
    ensures AmpersandsAreEntities(Escape(v))
  {
    if v.Some? {
      ReplacedIsEncode(v.value);
      EncodeAmpersands(v.value);
    }
  }

  /** The markup characters never survive escaping, whatever the value:
      no `<`, `>`, `"` or `'` is left. */
  lemma EscapeMarkupFree(v: Option<string>, x: char)
    requires x == '<' || x == '>' || x == '"' || x == '\''
    ensures x !in Escape(v)
  {
    if v.Some? {
      var s1 := ReplaceChar(v.value, '&', "&amp;");
      var s2 := ReplaceChar(s1, '<', "&lt;");
      var s3 := ReplaceChar(s2, '>', "&gt;");
      var s4 := ReplaceChar(s3, '"', "&quot;");
      if x == '<' {
        ReplaceCharKeepsAbsent(s2, '>', "&gt;", x);
        ReplaceCharKeepsAbsent(s3, '"', "&quot;", x);
        ReplaceCharKeepsAbsent(s4, '\'', "&apos;", x);
      } else if x == '>' {
        ReplaceCharKeepsAbsent(s3, '"', "&quot;", x);
        ReplaceCharKeepsAbsent(s4, '\'', "&apos;", x);
      } else if x == '"' {
        ReplaceCharKeepsAbsent(s4, '\'', "&apos;", x);
      }
    }
  }

  /** The ten element contents of `formatearTenistaXML`, in column order:
      only the name and the country are escaped. */
  function Values(t: Tenista): (r: seq<string>)
    requires Renderable(t)
    ensures |r| == |ColumnNames|
  {
    seq(|ColumnNames|, k requires 0 <= k < |ColumnNames| => Value(t, k))
  }

  /** The content of the element of column `k`. */
  function Value(t: Tenista, k: nat): string
    requires Renderable(t) && k < |ColumnNames|
  {
    if k == 0 then IdText(t.id)
    else if k == 1 then Escape(t.nombre)
    else if k == 2 then Escape(t.pais)
    else if k == 3 then IntToString(t.altura)
    else if k == 4 then IntToString(t.peso)
    else if k == 5 then IntToString(t.puntos)
    else if k == 6 then ManoName(t.mano.value)
    else if k == 7 then FormatDate(t.fechaNacimiento.value)
    else if k == 8 then FormatDateTime(t.createdAt.value)
    else FormatDateTime(t.updatedAt.value)
  }

  /** One child line: indented four spaces, the content between the
      opening and the closing tag. */
  function Element(tag: string, content: string): string {
    "    <" + tag + ">" + content + "</" + tag + ">\n"
  }

  function Elements(tags: seq<string>, contents: seq<string>): string
    requires |tags| == |contents|
  {
    if tags == [] then "" else Element(tags[0], contents[0]) + Elements(tags[1..], contents[1..])
  }

  /** A fixed line of markup: its indentation, then one tag ending the line. */
  function MarkupLine(indent: string, tag: string): string {
    indent + "<" + tag + "\n"
  }

  const RecordOpen: string := MarkupLine("  ", "tenista>")
  const RecordClose: string := MarkupLine("  ", "/tenista>")
  const RootOpen: string := MarkupLine("", "tenistas>")
  const RootClose: string := MarkupLine("", "/tenistas>")
  const Declaration: string := MarkupLine("", "?xml version=\"1.0\" encoding=\"UTF-8\"?>")

  lemma MarkupLineTags(indent: string, tag: string)
    requires '<' !in indent && '<' !in tag
    ensures CountChar(MarkupLine(indent, tag), '<') == 1
  {
    CountCharOne(indent, '<', tag + "\n");
    assert MarkupLine(indent, tag) == indent + "<" + (tag + "\n");
  }

  /** The declaration holds exactly one `<`. */
  lemma DeclarationTags()
    ensures CountChar(Declaration, '<') == 1
  {
    MarkupLineTags("", "?xml version=\"1.0\" encoding=\"UTF-8\"?>");
  }

  /** Each fixed line of markup holds exactly one `<`. */
  lemma MarkupTags()
    ensures CountChar(RecordOpen, '<') == 1 && CountChar(RecordClose, '<') == 1
    ensures CountChar(RootOpen, '<') == 1 && CountChar(RootClose, '<') == 1
  {
    MarkupLineTags("  ", "tenista>");
    MarkupLineTags("  ", "/tenista>");
    MarkupLineTags("", "tenistas>");
    MarkupLineTags("", "/tenistas>");
  }

  /** `formatearTenistaXML`: the record's element, its children named after
      the columns. */
  function Block(t: Tenista): string
    requires Renderable(t)
  {
    RecordOpen + Elements(ColumnNames, Values(t)) + RecordClose
  }

  /** The records' elements, in list order. */
  function Blocks(ts: seq<Tenista>): string
    requires AllRenderable(ts)
  {
    ConcatMap(ts, Block)
  }

  /** `escribir`: the declaration, then the root element holding one block
      per record, in list order. */
  function Document(ts: seq<Tenista>): string
    requires AllRenderable(ts)
  {
    Declaration + RootOpen + Blocks(ts) + RootClose
  }

  /** Writing two lists in turn writes the blocks of the first, then those
      of the second. */
  lemma BlocksAppend(ts1: seq<Tenista>, ts2: seq<Tenista>)
    requires AllRenderable(ts1) && AllRenderable(ts2)
    ensures AllRenderable(ts1 + ts2)
    ensures Blocks(ts1 + ts2) == Blocks(ts1) + Blocks(ts2)
  {
    ConcatMapAppend(ts1, ts2, Block);
  }

  /** No element content holds a `<`: the name and the country are
      escaped, and every other value is a number, a date or a hand name. */
  lemma ValuesMarkupFree(t: Tenista)
    requires Renderable(t)
    ensures forall k | 0 <= k < |Values(t)| :: '<' !in Values(t)[k]
  {
    var f := Values(t);
    forall k | 0 <= k < |f| ensures '<' !in f[k] {
      ValueMarkupFree(t, k);
    }
  }

  lemma ValueMarkupFree(t: Tenista, k: nat)
    requires Renderable(t) && k < |ColumnNames|
    ensures '<' !in Value(t, k)
  {
    if k == 0 {
      IdTextLacks(t.id, '<');
    } else if k == 1 {
      EscapeMarkupFree(t.nombre, '<');
    } else if k == 2 {
      EscapeMarkupFree(t.pais, '<');
    } else if k == 3 {
      IntToStringLacks(t.altura, '<');
    } else if k == 4 {
      IntToStringLacks(t.peso, '<');
    } else if k == 5 {
      IntToStringLacks(t.puntos, '<');
    } else if k == 6 {
      ManoNameLacks(t.mano.value, '<');
    } else if k == 7 {
      FormatDateLacks(t.fechaNacimiento.value, '<');
    } else if k == 8 {
      FormatDateTimeLacks(t.createdAt.value, '<');
    } else {
      FormatDateTimeLacks(t.updatedAt.value, '<');
    }
  }

  lemma ElementTags(tag: string, content: string)
    requires '<' !in tag && '<' !in content
    ensures CountChar(Element(tag, content), '<') == 2
  {
    var a := "    " + "<" + (tag + ">" + content);
    var b := "" + "<" + ("/" + tag + ">\n");
    assert Element(tag, content) == a + b;
    CountCharOne("    ", '<', tag + ">" + content);
    CountCharOne("", '<', "/" + tag + ">\n");
    CountCharAppend(a, b, '<');
  }

  lemma {:induction false} ElementsTags(tags: seq<string>, contents: seq<string>)
    requires |tags| == |contents|
    requires forall k | 0 <= k < |tags| :: '<' !in tags[k] && '<' !in contents[k]
    ensures CountChar(Elements(tags, contents), '<') == 2 * |tags|
  {
    if tags != [] {
      ElementTags(tags[0], contents[0]);
      ElementsTags(tags[1..], contents[1..]);
      CountCharAppend(Element(tags[0], contents[0]), Elements(tags[1..], contents[1..]), '<');
    }
  }

  /** Every `<` in a record's element opens or closes a tag: two for the
      record element and two per column, whatever the name and country
      hold. */
  lemma BlockTags(t: Tenista)
    requires Renderable(t)
    ensures CountChar(Block(t), '<') == 2 + 2 * |ColumnNames|
  {
    var c := ColumnNames;
    var body := Elements(c, Values(t));
    ValuesMarkupFree(t);
    ColumnNamesLack('<');
    ElementsTags(c, Values(t));
    MarkupTags();
    var open, close := RecordOpen, RecordClose;
    CountCharAppend(open + body, close, '<');
    CountCharAppend(open, body, '<');
  }

  lemma BlocksTags(ts: seq<Tenista>)
    requires AllRenderable(ts)
    ensures CountChar(Blocks(ts), '<') == (2 + 2 * |ColumnNames|) * |ts|
  {
    forall k | 0 <= k < |ts| ensures CountChar(Block(ts[k]), '<') == 2 + 2 * |ColumnNames| {
      BlockTags(ts[k]);
    }
    ConcatMapCount(ts, Block, '<', 2 + 2 * |ColumnNames|);
  }

  /** The document's `<` characters are exactly those of the declaration,
      the root's two tags and each record's tags. */
  lemma DocumentTags(ts: seq<Tenista>)
    requires AllRenderable(ts)
    ensures CountChar(Document(ts), '<') == 3 + (2 + 2 * |ColumnNames|) * |ts|
  {
    var body := Blocks(ts);
    var decl, open, close := Declaration, RootOpen, RootClose;
    BlocksTags(ts);
    MarkupTags();
    DeclarationTags();
    CountCharAppend(decl + open + body, close, '<');
    CountCharAppend(decl + open, body, '<');
    CountCharAppend(decl, open, '<');
  }

  /** The written numbers parse back to the record's numbers. */
  lemma NumbersReadBack(t: Tenista)
    requires Renderable(t)
    ensures ParseInt(Values(t)[3]) == Some(t.altura)
    ensures ParseInt(Values(t)[4]) == Some(t.peso)
    ensures ParseInt(Values(t)[5]) == Some(t.puntos)
  {
    var f := Values(t);
    assert f[3] == IntToString(t.altura) && f[4] == IntToString(t.peso) && f[5] == IntToString(t.puntos);
    IntToStringParses(t.altura);
    IntToStringParses(t.peso);
    IntToStringParses(t.puntos);
  }

  /** The written name and country decode to the record's texts. */
  lemma TextsReadBack(t: Tenista)
    requires Renderable(t)
    ensures t.nombre.Some? ==> Decode(Values(t)[1]) == t.nombre.value
    ensures t.pais.Some? ==> Decode(Values(t)[2]) == t.pais.value
  {
    var f := Values(t);
    assert f[1] == Escape(t.nombre) && f[2] == Escape(t.pais);
    if t.nombre.Some? {
      EscapeRoundTrip(t.nombre.value);
    }
    if t.pais.Some? {
      EscapeRoundTrip(t.pais.value);
    }
  }
}
